=== FILE: README.md ===
# redis-bus in Dafny

A model of the `Bus` of redis-bus: a remote-procedure-call bus built on Redis.
Clients register methods by name, submit calls (`run_method`), and read the
outcomes asynchronously (`AsyncResult.get`). Workers drain the call queues,
either once (`serve_once`) or forever (`serve`). A method with a cache
template has its outcomes memoised under a key built from its bound
arguments.

Redis is modelled as an immutable `Broker` value. Its keyspace is split by
value type: hashes, lists of call records, lists of outcomes, plain values
and timeouts. Every command the bus issues is a pure function on it (module
`Broker`), and blocking pops are a single attempt that reports where Redis
would wait. Each bus operation returns a `Step`: the broker afterwards and
either the result or the error Python would raise. Side effects made before
a raise are kept, as in the source.

Modules, in dependency order:

- `Base`: `Option` and `Result`.
- `Strings`: `rsplit`, `join`, `str(int)`.
- `Glob`: `fnmatch`.
- `Data`: values, call records, method records.
- `Signatures`: argument binding.
- `Template`: `str.format` for cache keys.
- `Broker`: the Redis commands.
- `Keyspace`: bus configuration, `_k`, errors.
- `Registry`: `register_method`, `get_method`, `_get_method_options`, `all_methods`.
- `Resolver`: `_get_redis_cache_key`, `_check_cache`.
- `Client`: `run_method`, `_enqueue_method`, `clear_method_cache`.
- `Worker`: `_exec_function`.
- `Serving`: `serve_once`, `serve`.
- `Results`: `get_async_result`, `AsyncResult.get`.
- `Scenarios`: end-to-end runs that follow the repository's tests.

Functions cannot be imported by path in Dafny. A `FunctionTable` maps dotted
paths to functions, and a path missing from it is an import failure. Each
function has a declared parameter list and a body. The body takes the bound
arguments and an `entropy` number that stands for the randomness a function
such as `uuid4` draws. A worker hands each call it runs the next entropy
number.

In four places the model follows the code where it looks unintended:

- Only a returned value is memoised by `AsyncResult.get`. A raised one is
  read again on the next `get`.
- `serve` recovers the method name from the popped queue key by its text
  after the last ':', so a method whose name contains ':' is served under
  the wrong name.
- A handle resolved at submission to a cached exception returns the
  exception instead of raising it.
- Reading a result drops its timeout.

The last three are listed under Findings. `_get_method_options` raises on an
unknown name with a message that shows the missing record (`None`), not the
name. The model keeps only the error kind, `UnknownMethod`.

## Model

| member | source | states |
|---|---|---|
| Keyspace.KeyShape | redis_bus.py:318-321 | A key is the bus name followed by each segment, all joined with ':' |
| Keyspace.CallsKeyInjective | redis_bus.py:318-321 | Two methods share a call queue only if they have the same name |
| Keyspace.KeyKindsDisjoint | redis_bus.py:318-321 | Call queues, result slots, cache slots and the methods hash never share a key, so writing one kind cannot disturb another |
| Keyspace.NewBus | redis_bus.py:29-53 | A bus built from its name alone has no prefix, a one-hour result timeout and a one-day cache timeout |
| Registry.MethodName | redis_bus.py:96-100 | The registered name is the explicit one if given; otherwise it is the last dotted component of the function path behind the bus prefix |
| Registry.RegisterMethod | redis_bus.py:83-109 | A function of `__main__` is refused and nothing changes. Otherwise `get_method` now finds exactly the new record under the name, and every other name's record is unchanged |
| Registry.GetMethod | redis_bus.py:69-81 | A method object exists exactly when the methods hash has the name, and it carries the stored path and template |
| Registry.GetMethodOptions | redis_bus.py:161-184 | An unknown name raises; so does a path that cannot be imported. Otherwise the result is the stored record with its function |
| Registry.AllMethods | redis_bus.py:63-67 | The names listed are exactly the names `get_method` finds |
| Registry.AllMethodsDistinct | redis_bus.py:63-67 | No name is listed twice |
| Glob.Filter | redis_bus.py:225-226 | The matching names, each one a listed name that matches the pattern, with no duplicates added |
| Glob.FilterSnoc | redis_bus.py:225-226 | Filtering keeps the listed order: the filter of a list with one more name is the old filter, followed by that name if it matches |
| Glob.PrefixStar | redis_bus.py:50 | The default serve pattern `prefix*` matches exactly the names that start with the prefix, for a prefix without `*`, `?` or `[` |
| Signatures.Validate | redis_bus.py:286 | `validate_arguments` yields one value per parameter or a non-empty list of missing names; with at least as many positional arguments as parameters it takes the leading ones and drops the rest |
| Signatures.ValidateBinds | redis_bus.py:286 | For distinct parameter names, validation succeeds exactly when every parameter gets a positional, keyword or default value, and then yields exactly those values |
| Signatures.ValidateDropsKeyword | redis_bus.py:286 | A keyword naming no parameter that is looked up by keyword (unknown, or already filled positionally) is dropped: the call validates as if it were absent |
| Signatures.BindArguments | redis_bus.py:209 | `bind_arguments` fails with a positional-count error exactly when there are more positional arguments than parameters, and binds only parameter names |
| Signatures.BindArgumentsOk | redis_bus.py:209 | `bind_arguments` succeeds exactly when there is no surplus positional argument and every keyword names a parameter that no positional argument fills; a missing parameter does not make it fail |
| Signatures.BindArgumentsValue | redis_bus.py:209 | Every parameter before the first one without a value is bound to its positional, keyword or default value |
| Signatures.BindArgumentsBinds | redis_bus.py:209 | When every parameter gets a value, the binding maps exactly the parameter names, each to its value |
| Signatures.BindArgumentsShifts | redis_bus.py:209 | A missing parameter shifts later values onto earlier names: `f(a, b=5)` called bare binds `a` to 5 and leaves `b` out, while validation reports `a` missing |
| Signatures.PositionalAsKeyword | redis_bus.py:208-209 | Passing the last positional argument by keyword is the same call to both binders |
| Template.FormatRender | redis_bus.py:210 | Formatting a template's text with the bound arguments yields the reference expansion, with each field replaced by its argument's `str` |
| Template.FormatMissing | redis_bus.py:210 | A template naming a field that the bound arguments lack fails to format |
| Resolver.RedisCacheKey | redis_bus.py:200-211 | A method without a template has no key. Otherwise binding or formatting errors raise, and a success is a cache key of this method |
| Resolver.ResolveParsed | redis_bus.py:200-211 | For a parsed template, the key is the cache key of the expansion of the template over the bound arguments |
| Resolver.SeedKey | redis_bus.py:200-211 | For the template `{seed}` over a first parameter `seed`, the call `f(n)` resolves to the cache key whose last segment is the decimal text of `n` |
| Resolver.DistinctSeeds | redis_bus.py:200-211 | Under the template `{seed}`, calls with different seeds resolve to different cache keys, so `run(2)` does not hit the slot of `run(1)` |
| Resolver.ResolveKeywordForm | redis_bus.py:200-211 | A call resolves to the same cache key whether its last argument is passed by position or by keyword |
| Resolver.LookupCache | redis_bus.py:191-198 | A missing key is a miss and a plain value is a hit. A key of another type makes `GET` raise |
| Resolver.CheckCache | redis_bus.py:186-198 | Key errors raise. Without a template every check misses. A hit happens exactly when the resolved key holds a value, and it yields that value |
| Client.EnqueueMethod | redis_bus.py:213-218 | The record `[args, kwargs, result_id]` goes to the head of the method's queue; nothing else changes |
| Client.RunMethod | redis_bus.py:124-153 | Errors raise before any write. A cache hit returns a handle resolved to the cached value and creates no work. A miss pushes exactly one record and returns a pending handle |
| Client.ClearMethodCache | redis_bus.py:155-159 | Deletes exactly the call's resolved cache slot; does nothing for an untemplated method; raises on key errors |
| Worker.ExecFunction | redis_bus.py:268-302 | An error escapes with no write; a successful execution keeps the broker well-formed |
| Worker.InvokeOutcome | redis_bus.py:284-289 | Calling through `validate_arguments` runs the function on the bound values when every parameter gets one, and otherwise yields an `ArgumentValidationError` as the outcome; surplus positional arguments are dropped |
| Worker.ExecOutcome | redis_bus.py:280-289 | A cached outcome is adopted; on a miss the outcome of calling the function through `validate_arguments` is used, a raised fault included; a key error escapes |
| Worker.ExecFrame | redis_bus.py:268-302 | Only the call's result slot and its resolved cache slot are written |
| Worker.ExecKeepsQueues | redis_bus.py:268-302 | Executing a call leaves every call queue and the methods hash alone |
| Worker.ExecPublishes | redis_bus.py:298-302 | With a result timeout that is unset or positive, the outcome is appended to the call's own result slot and to no other |
| Worker.ExecCaches | redis_bus.py:291-296 | On a miss a templated outcome is stored in its cache slot; a cache timeout that is not positive deletes the slot at once |
| Worker.ExecLeavesCache | redis_bus.py:280-296 | An adopted cached outcome is not re-cached, and an untemplated method never writes the cache |
| Worker.Publish | redis_bus.py:299-302 | The outcome is appended to the result slot, which then carries the result timeout |
| Serving.DrainQueue | redis_bus.py:229-233 | Draining one queue runs records until the queue is empty or an execution raises; every run uses the next entropy number |
| Serving.DrainOrder | redis_bus.py:229-233 | Records run oldest first. A clean drain runs them all and empties the queue. A raise leaves exactly the records not yet popped; the failing record is lost |
| Serving.DrainFrame | redis_bus.py:229-233 | Draining one queue leaves every other queue and the methods hash alone |
| Serving.DrainValid | redis_bus.py:229-233 | Draining keeps the broker well-formed |
| Serving.DrainPublishes | redis_bus.py:229-233 | Each run's outcome is appended to its own result slot, in run order, for an executor that publishes (as `_exec_function` does when the result timeout is unset or positive) |
| Serving.DrainComputes | redis_bus.py:229-233 | For an untemplated method, each run's value is its function applied to the record's arguments and the run's entropy |
| Serving.DrainAll | redis_bus.py:227-233 | Every run belongs to a listed method and consumes the next entropy number |
| Serving.DrainAllOrder | redis_bus.py:227-233 | For distinct names, the runs follow the order of the list: no run of a later method precedes a run of an earlier one |
| Serving.DrainAllStops | redis_bus.py:227-233 | A loop that raises stopped at some listed method: it ran only calls of that method and the ones before it, and left the queues of all other methods as they were |
| Serving.DrainUntemplated | redis_bus.py:229-233 | Draining an untemplated method's queue never raises, and each run's value is the function's outcome on the call's arguments and that run's entropy |
| Serving.DrainAllFrame | redis_bus.py:227-233 | Queues of unlisted methods and the methods hash are untouched |
| Serving.DrainAllEmpties | redis_bus.py:227-233 | A loop that finishes cleanly found options for every listed method and emptied each one's queue |
| Serving.DrainAllPublishes | redis_bus.py:227-233 | With a result timeout that is unset or positive, every outcome computed is appended to its call's result slot |
| Serving.ServeOnce | redis_bus.py:220-233 | Only registered methods matching the pattern are run |
| Serving.ServeOnceOrder | redis_bus.py:225-233 | `serve_once` runs methods in the order `HKEYS` lists them |
| Serving.ServeOnceDefault | redis_bus.py:220-233 | For a bus prefix without `*`, `?` or `[`, with the default pattern, a clean pass empties the queue of every registered method with the bus prefix, leaves every other queue alone, and, with a result timeout that is unset or positive, publishes every outcome |
| Serving.WatchOptions | redis_bus.py:246 | Options are read for every watched name; the first name that fails raises |
| Serving.ServeSetup | redis_bus.py:239-249 | Nothing matching raises 'Nothing to serve'. Otherwise the watch covers exactly the matching names with their current options |
| Serving.ServeStepAsWritten | redis_bus.py:252-256 | The loop step as written is idle exactly when all watched queues are empty, and the name it routes to contains no ':' |
| Serving.ServeStep | redis_bus.py:252-256 | Takes the oldest record of the first non-empty watched queue and runs it with that method's options; idle exactly when every watched queue is empty |
| Serving.ServeStepPublishes | redis_bus.py:252-256 | With a result timeout that is unset or positive, a served call shortens its queue by one and appends its outcome to its result slot |
| Serving.ServeStepAgrees | redis_bus.py:253-256 | When no watched name contains ':', the step as written equals the intended step |
| Serving.ServeStepMisroutes | redis_bus.py:253-256 | For a watched name `head:tail`, the step as written routes the call to `tail`. With no options for `tail` it raises after popping the record; otherwise it runs the record with `tail`'s options |
| Results.GetAsyncResultAsWritten | redis_bus.py:304-316 | Reads the head outcome, raising it when it is an exception, and rotates the slot |
| Results.GetAsyncResult | redis_bus.py:304-316 | Reads the head outcome, raising it when it is an exception, and changes nothing; it would wait only while the slot is empty |
| Results.GetAsyncResultReadsAlike | redis_bus.py:310-316 | The read as written and the intended read yield the same outcome |
| Results.GetAsyncResultDropsTimeout | redis_bus.py:310-312 | Reading a slot that holds one outcome leaves its contents as they were but removes its timeout |
| Results.GetAsyncResultRotates | redis_bus.py:310-312 | If a slot holds two different outcomes, two successive reads as written disagree |
| Results.AsyncGetAsWritten | redis_bus.py:383-386 | A handle that already holds a value returns it, even an exception. A pending handle reads its slot and remembers only a returned value |
| Results.AsyncGet | redis_bus.py:383-386 | A remembered outcome is returned or raised as a read one would be. A returned value is remembered |
| Results.AsyncGetIdempotent | redis_bus.py:383-386 | Once a handle holds its value, `get` gives the same outcome again without the broker |
| Results.AsyncGetAgreesWhenPending | redis_bus.py:383-386 | For a pending handle, both versions of `get` agree |
| Results.AsyncGetReturnsCachedFault | redis_bus.py:150-153 | A handle resolved in advance to a cached exception returns it as written, but raises it as intended |
| Scenarios.RemoteCall | tests/test_bus.py:75-78 | An untemplated call that is submitted, then taken by the serve loop, reads back as its function's outcome, with a result timeout that is unset or positive |
| Scenarios.CachedCall | tests/test_bus.py:54-72 | A templated call misses first. After one step of the `serve` loop runs it, the same call is answered at submission with the same value, unless a cache timeout that is not positive deleted the slot, in which case it misses. After `clear_cache` it misses again |
| Scenarios.HelloOutcomes | tests/test_bus.py:40-51 | `hello()`, `hello('Joe')` and `hello(username='Joe')` give 'Hello, world', 'Hello, Joe' and 'Hello, Joe' |
| Scenarios.HelloDropsExtras | redis_bus.py:284-287 | `hello('Joe', 'extra')`, `hello(username='Joe', name='Bob')` and `hello('Joe', username='Bob')` all give 'Hello, Joe': `validate_arguments` drops what it cannot place |
| Scenarios.RemoteCalls | tests/test_bus.py:40-51 | After registering `hello`, three submissions and one `serve_once`, the three handles read 'Hello, world', 'Hello, Joe' and 'Hello, Joe' |
| Scenarios.ServeThree | redis_bus.py:227-233 | Three calls queued for the only method are run in submission order with consecutive entropy numbers |
| Scenarios.ServeCaches | tests/test_bus.py:81-93 | Serving a templated miss with one step of the `serve` loop caches its value, unless a cache timeout that is not positive deletes the slot at once, so the next call misses |

## Left out

- Connecting to Redis, `cleanup`, `register` (a decorator around `register_method`), `_get_methods`, `__getattr__`/`__getitem__`/`__eq__`/`__repr__`, `Method.run`/`__call__`, and `main`. They are wrappers, or lie outside the bus protocol.
- The `print` in `serve`, which is output only.
- Pickle and JSON encoding. Values travel through the broker as they are, so decoding a stored value gives back the stored value.
- `uuid4` result ids. The caller supplies the id, which stands for a fresh one.
- `import_string`. It is the `FunctionTable` parameter.
- Time. A timeout is recorded but never fires; a timeout that is not positive deletes the key at once, as Redis does.
- Blocking. `BRPOP` and `BLPOP` are a single attempt that reports where Redis would wait. The forever loop of `serve` is its single step, which can be repeated.
- Concurrency between clients and workers. Each model operation is one uninterrupted sequence of commands.
- Signatures.Validate: models `validate_arguments` (werkzeug, which is not part of this model) for plain positional-or-keyword parameters with defaults: each parameter takes its positional argument, else its keyword, else its default, else is missing. `*args`, `**kwargs` and keyword-only parameters are not modelled.
- Signatures.BindArguments: models `bind_arguments` over the same parse, for the same kinds of parameters only. The keyword dictionary it builds is modelled as the map from parameter names to the collected values.
- Template.FormatRender: covers `{name}` fields and the `{{`/`}}` escapes. A positional field is an error. Conversions, format specs, and attribute or index lookups are not modelled.
- Worker.ExecPublishes: stated only for a result timeout that is unset or positive. With a timeout that is not positive, `_exec_function` still pushes the outcome, but the `EXPIRE` deletes the slot at once, so there is nothing to read.
- Serving.DrainAllPublishes: stated only for a result timeout that is unset or positive, for the reason given for Worker.ExecPublishes.
- Serving.ServeStepPublishes: stated only for a result timeout that is unset or positive, for the reason given for Worker.ExecPublishes.
- The order of `HKEYS`: it is modelled as listing fields in insertion order. Redis does so only while a hash is small (its listpack encoding); a large hash lists them in an unspecified order. `serve_once` drains methods in this order (Serving.ServeOnceOrder).
- Exceptions that are not `Exception`s. `_exec_function` catches only `except Exception`, so a function raising `SystemExit`, `KeyboardInterrupt` or `GeneratorExit` (or, in Python 2, an old-style class instance) escapes it after its record was popped, and ends `serve_once` or `serve`. Every fault a modelled function raises is an `Exception` and becomes the call's outcome.
- Values other than `None`, integers, strings and exception objects. Floats, lists, dicts and other objects, and the `str` of such an argument in a cache key (a template such as `'{a}/{b}'` over floats), are not modelled.
- Glob.PrefixStar: stated only for a prefix without `*`, `?` or `[`. A prefix with a wildcard makes `prefix*` match names that do not start with it, and `fnmatch` reads `[` as the start of a character class, which the model does not implement.
- Serving.ServeOnceDefault: stated only for a bus prefix without `*`, `?` or `[`, for the reason given for Glob.PrefixStar; the publication clause also only for a result timeout that is unset or positive, for the reason given for Worker.ExecPublishes.
- Scenarios.RemoteCall: stated only for a result timeout that is unset or positive, for the reason given for Worker.ExecPublishes.
- Glob.Filter: supports `*`, `?` and literal characters; `[...]` character classes are not modelled.

## Findings

| source | as written | input that shows it | evidently intended | confidence | as-written member | corrected member |
|---|---|---|---|---|---|---|
| redis_bus.py:253-256 | `serve` recovers the method name from the popped key with `key.rsplit(':', 1)[-1]` | A method registered as `math:sum` has its call popped from `<bus>:calls:math:sum`. It is then looked up as `sum`: `KeyError` with the record lost, or `sum`'s options if that method is also watched (lemma `Serving.ServeStepMisroutes`) | Route each popped key to the watched method whose queue it is | high (not executed) | Serving.ServeStepAsWritten | Serving.ServeStep |
| redis_bus.py:383-386 | `get` returns `self.result` whenever it is set, and a cache hit sets it to the cached outcome, which may be an exception captured by a worker | Submitting a templated call whose cached outcome is `ExcValue(f)`: `get()` returns the exception object instead of raising it (lemma `Results.AsyncGetReturnsCachedFault`) | Raise a remembered exception just as `get_async_result` raises a read one | high (not executed) | Results.AsyncGetAsWritten | Results.AsyncGet |
| redis_bus.py:310-312 | `get_async_result` reads with `BLPOP` and restores with `RPUSH` | A result slot holding one outcome, with the result timeout set: `BLPOP` deletes the key with its timeout, `RPUSH` recreates it without one, and the result never expires (lemma `Results.GetAsyncResultDropsTimeout`) | Reading leaves the slot as it was, timeout included | medium (not executed) | Results.GetAsyncResultAsWritten | Results.GetAsyncResult |

=== FILE: base.dfy ===
/** Failure-compatible wrappers used throughout the model. */
module Base {

  /** An optional value; `None` also stands for Python's `None` return. */
  datatype Option<+T> = None | Some(value: T) {
    function GetOr(default: T): T {
      match this
      case Some(v) => v
      case None => default
    }
  }

  /** A value or the error a Python call would raise. */
  datatype Result<+T, +E> = Ok(value: T) | Err(error: E) {
    predicate IsFailure() {
      Err?
    }

    function PropagateFailure<U>(): Result<U, E>
      requires Err?
    {
      Err(error)
    }

    function Extract(): T
      requires Ok?
    {
      value
    }
  }
}

=== FILE: broker.dfy ===
/** The broker as an immutable value: Redis's keyspace split by value type,
    every key a full key string, and the Redis commands the bus issues as
    pure functions on it. Blocking pops are modelled as one non-blocking
    attempt that returns `None` where Redis would wait. */
module Broker {
  import opened Base
  import opened Data

  /** Fields of a hash in insertion order, as `HKEYS` lists a small hash. */
  type Fields = seq<(string, MethodSpec)>

  datatype Broker = Broker(
    hashes: map<string, Fields>,
    calls: map<string, seq<CallRecord>>,   // lists holding pickled call records
    results: map<string, seq<Value>>,      // lists holding pickled outcomes
    strings: map<string, Value>,           // plain string values (pickled outcomes)
    ttl: map<string, int>)                 // keys carrying a timeout, in seconds

  const Empty := Broker(map[], map[], map[], map[], map[])

  predicate UniqueFields(fs: Fields) {
    forall i, j :: 0 <= i < j < |fs| ==> fs[i].0 != fs[j].0
  }

  /** Redis never keeps an empty list or hash, and a timeout belongs to a key
      that exists. */
  ghost predicate Valid(s: Broker) {
    && (forall k :: k in s.calls ==> s.calls[k] != [])
    && (forall k :: k in s.results ==> s.results[k] != [])
    && (forall k :: k in s.hashes ==> s.hashes[k] != [] && UniqueFields(s.hashes[k]))
    && (forall k :: k in s.ttl ==> k in s.hashes || k in s.calls || k in s.results || k in s.strings)
  }

  /** Views: an absent key reads as an empty list or hash. */
  function CallList(s: Broker, key: string): seq<CallRecord> {
    if key in s.calls then s.calls[key] else []
  }

  function ResultList(s: Broker, key: string): seq<Value> {
    if key in s.results then s.results[key] else []
  }

  function HashOf(s: Broker, key: string): Fields {
    if key in s.hashes then s.hashes[key] else []
  }

  /** Every key outside `keys` reads the same in `t` as in `s`, timeout included. */
  ghost predicate Untouched(s: Broker, t: Broker, keys: set<string>) {
    forall k :: k !in keys ==>
      && Get(t, k) == Get(s, k)
      && CallList(t, k) == CallList(s, k)
      && ResultList(t, k) == ResultList(s, k)
      && HashOf(t, k) == HashOf(s, k)
      && (k in t.ttl <==> k in s.ttl)
      && (k in t.ttl ==> t.ttl[k] == s.ttl[k])
  }

  lemma UntouchedTrans(s: Broker, t: Broker, u: Broker, a: set<string>, b: set<string>)
    requires Untouched(s, t, a) && Untouched(t, u, b)
    ensures Untouched(s, u, a + b)
  {
  }

  // ---- hashes -------------------------------------------------------------

  function Lookup(fs: Fields, field: string): (r: Option<MethodSpec>)
    ensures r.Some? <==> exists i :: 0 <= i < |fs| && fs[i].0 == field
  {
    if |fs| == 0 then None
    else if fs[0].0 == field then Some(fs[0].1)
    else Lookup(fs[1..], field)
  }

  /** Overwrites a present field in place, or appends a new one. */
  function Put(fs: Fields, field: string, v: MethodSpec): (r: Fields)
    ensures Lookup(r, field) == Some(v)
    ensures forall f :: f != field ==> Lookup(r, f) == Lookup(fs, f)
  {
    if |fs| == 0 then [(field, v)]
    else if fs[0].0 == field then [(field, v)] + fs[1..]
    else
      var rest := Put(fs[1..], field, v);
      assert forall f :: f != fs[0].0 ==> Lookup(fs, f) == Lookup(fs[1..], f);
      [fs[0]] + rest
  }

  /** `Put` keeps field names unique. */
  lemma {:induction false} PutUnique(fs: Fields, field: string, v: MethodSpec)
    ensures UniqueFields(fs) ==> UniqueFields(Put(fs, field, v))
  {
    if UniqueFields(fs) && |fs| > 0 && fs[0].0 != field {
      PutUnique(fs[1..], field, v);
      var r := Put(fs, field, v);
      var rest := Put(fs[1..], field, v);
      assert r == [fs[0]] + rest;
      assert Lookup(fs[1..], fs[0].0).None?;
      assert Lookup(rest, fs[0].0).None?;
      forall i, j | 0 <= i < j < |r| ensures r[i].0 != r[j].0 {
        assert r[j] == rest[j - 1];
        if i > 0 {
          assert r[i] == rest[i - 1];
        }
      }
    }
  }

  /** `Put` keeps the order of `HKEYS`: a new field goes last. */
  lemma {:induction false} PutNames(fs: Fields, field: string, v: MethodSpec)
    ensures Lookup(fs, field).Some? ==> FieldNames(Put(fs, field, v)) == FieldNames(fs)
    ensures Lookup(fs, field).None? ==> FieldNames(Put(fs, field, v)) == FieldNames(fs) + [field]
  {
    if |fs| > 0 {
      var r := Put(fs, field, v);
      if fs[0].0 != field {
        PutNames(fs[1..], field, v);
        assert r[1..] == Put(fs[1..], field, v);
      } else {
        assert r[1..] == fs[1..];
      }
    }
  }

  function FieldNames(fs: Fields): seq<string> {
    if |fs| == 0 then [] else [fs[0].0] + FieldNames(fs[1..])
  }

  /** `HGET key field`. */
  function HGet(s: Broker, key: string, field: string): Option<MethodSpec> {
    Lookup(HashOf(s, key), field)
  }

  /** `HSET key field v`. */
  function HSet(s: Broker, key: string, field: string, v: MethodSpec): (t: Broker)
    ensures HGet(t, key, field) == Some(v)
    ensures forall k, f :: (k, f) != (key, field) ==> HGet(t, k, f) == HGet(s, k, f)
    ensures t.calls == s.calls && t.results == s.results && t.strings == s.strings && t.ttl == s.ttl
    ensures HGet(s, key, field).None? ==> HKeys(t, key) == HKeys(s, key) + [field]
    ensures Valid(s) ==> Valid(t)
  {
    PutNames(HashOf(s, key), field, v);
    PutUnique(HashOf(s, key), field, v);
    s.(hashes := s.hashes[key := Put(HashOf(s, key), field, v)])
  }

  /** `HKEYS key`. */
  function HKeys(s: Broker, key: string): seq<string> {
    FieldNames(HashOf(s, key))
  }

  // ---- lists --------------------------------------------------------------

  /** `LPUSH key x`: the new record goes to the head (left) of the list. */
  function LPush(s: Broker, key: string, x: CallRecord): (t: Broker)
    ensures CallList(t, key) == [x] + CallList(s, key)
    ensures forall k :: k != key ==> CallList(t, k) == CallList(s, k)
    ensures t.hashes == s.hashes && t.results == s.results && t.strings == s.strings && t.ttl == s.ttl
    ensures Untouched(s, t, {key})
    ensures Valid(s) ==> Valid(t)
  {
    s.(calls := s.calls[key := [x] + CallList(s, key)])
  }

  /** `RPOP key`: takes the tail (right) record, deleting the key, and with it
      any timeout, when the list empties. */
  function RPop(s: Broker, key: string): (r: (Broker, Option<CallRecord>))
    ensures CallList(s, key) == [] ==> r == (s, None)
    ensures CallList(s, key) != [] ==>
      var xs := CallList(s, key);
      r.1 == Some(xs[|xs| - 1]) && CallList(r.0, key) == xs[..|xs| - 1]
    ensures forall k :: k != key ==> CallList(r.0, k) == CallList(s, k)
    ensures r.0.hashes == s.hashes && r.0.results == s.results && r.0.strings == s.strings
    ensures r.0.ttl - {key} == s.ttl - {key}
    ensures Untouched(s, r.0, {key})
    ensures Valid(s) ==> Valid(r.0)
  {
    var xs := CallList(s, key);
    if xs == [] then (s, None)
    else
      var rest := xs[..|xs| - 1];
      if rest == [] then (s.(calls := s.calls - {key}, ttl := s.ttl - {key}), Some(xs[|xs| - 1]))
      else (s.(calls := s.calls[key := rest]), Some(xs[|xs| - 1]))
  }

  /** `BRPOP keys` when it would not block: pops the tail of the first
      non-empty list in `keys`, reporting which key it came from; `None` where
      Redis would wait. */
  function BRPop(s: Broker, keys: seq<string>): (r: (Broker, Option<(nat, CallRecord)>))
    ensures r.1.None? <==> forall i :: 0 <= i < |keys| ==> CallList(s, keys[i]) == []
    ensures r.1.None? ==> r.0 == s
    ensures r.1.Some? ==>
      var i := r.1.value.0;
      && i < |keys|
      && (forall j :: 0 <= j < i ==> CallList(s, keys[j]) == [])
      && CallList(s, keys[i]) != []
      && r == (RPop(s, keys[i]).0, Some((i, RPop(s, keys[i]).1.value)))
  {
    if |keys| == 0 then (s, None)
    else if CallList(s, keys[0]) != [] then
      var p := RPop(s, keys[0]);
      (p.0, Some((0, p.1.value)))
    else
      var r := BRPop(s, keys[1..]);
      match r.1
      case None => (s, None)
      case Some(hit) => (r.0, Some((hit.0 + 1, hit.1)))
  }

  /** `RPUSH key v`: appends at the tail. */
  function RPush(s: Broker, key: string, v: Value): (t: Broker)
    ensures ResultList(t, key) == ResultList(s, key) + [v]
    ensures forall k :: k != key ==> ResultList(t, k) == ResultList(s, k)
    ensures t.hashes == s.hashes && t.calls == s.calls && t.strings == s.strings && t.ttl == s.ttl
    ensures Untouched(s, t, {key})
    ensures Valid(s) ==> Valid(t)
  {
    s.(results := s.results[key := ResultList(s, key) + [v]])
  }

  /** `BLPOP key` when it would not block: pops the head, deleting the key,
      and with it any timeout, when the list empties. */
  function BLPop(s: Broker, key: string): (r: (Broker, Option<Value>))
    ensures ResultList(s, key) == [] ==> r == (s, None)
    ensures ResultList(s, key) != [] ==>
      r.1 == Some(ResultList(s, key)[0]) && ResultList(r.0, key) == ResultList(s, key)[1..]
    ensures |ResultList(s, key)| == 1 ==> key !in r.0.ttl
    ensures forall k :: k != key ==> ResultList(r.0, k) == ResultList(s, k)
    ensures r.0.hashes == s.hashes && r.0.calls == s.calls && r.0.strings == s.strings
    ensures r.0.ttl - {key} == s.ttl - {key}
    ensures Untouched(s, r.0, {key})
    ensures Valid(s) ==> Valid(r.0)
  {
    var xs := ResultList(s, key);
    if xs == [] then (s, None)
    else if |xs| == 1 then (s.(results := s.results - {key}, ttl := s.ttl - {key}), Some(xs[0]))
    else (s.(results := s.results[key := xs[1..]]), Some(xs[0]))
  }

  /** `LINDEX key 0`: reads the head without removing it. */
  function LIndex0(s: Broker, key: string): (r: Option<Value>)
    ensures r.Some? <==> ResultList(s, key) != []
    ensures r.Some? ==> r.value == ResultList(s, key)[0]
  {
    var xs := ResultList(s, key);
    if xs == [] then None else Some(xs[0])
  }

  // ---- plain keys ---------------------------------------------------------

  /** `EXISTS key`. */
  predicate Exists(s: Broker, key: string) {
    key in s.hashes || key in s.calls || key in s.results || key in s.strings
  }

  /** `GET key` (on a key holding a plain value). */
  function Get(s: Broker, key: string): (r: Option<Value>)
    ensures r.Some? ==> Exists(s, key)
  {
    if key in s.strings then Some(s.strings[key]) else None
  }

  /** `SET key v`: replaces whatever the key held and clears its timeout. */
  function Set(s: Broker, key: string, v: Value): (t: Broker)
    ensures Get(t, key) == Some(v) && key !in t.ttl
    ensures forall k :: k != key ==> Get(t, k) == Get(s, k)
    ensures forall k :: k != key ==> CallList(t, k) == CallList(s, k) && ResultList(t, k) == ResultList(s, k)
    ensures forall k :: k != key ==> HashOf(t, k) == HashOf(s, k)
    ensures t.ttl == s.ttl - {key}
    ensures Untouched(s, t, {key})
    ensures Valid(s) ==> Valid(t)
  {
    Broker(s.hashes - {key}, s.calls - {key}, s.results - {key}, s.strings[key := v], s.ttl - {key})
  }

  /** `DEL key`: removes the key whatever it holds, with its timeout. */
  function Del(s: Broker, key: string): (t: Broker)
    ensures !Exists(t, key) && key !in t.ttl
    ensures forall k :: k != key ==> Get(t, k) == Get(s, k)
    ensures forall k :: k != key ==> CallList(t, k) == CallList(s, k) && ResultList(t, k) == ResultList(s, k)
    ensures forall k :: k != key ==> HashOf(t, k) == HashOf(s, k)
    ensures t.ttl == s.ttl - {key}
    ensures Untouched(s, t, {key})
    ensures Valid(s) ==> Valid(t)
  {
    Broker(s.hashes - {key}, s.calls - {key}, s.results - {key}, s.strings - {key}, s.ttl - {key})
  }

  /** `EXPIRE key seconds`: no effect on a missing key; a timeout that is not
      positive deletes the key at once; otherwise the key carries the timeout.
      The passage of time itself is not modelled. */
  function Expire(s: Broker, key: string, seconds: int): (t: Broker)
    ensures !Exists(s, key) ==> t == s
    ensures Exists(s, key) && seconds <= 0 ==> t == Del(s, key)
    ensures Exists(s, key) && seconds > 0 ==>
      t == s.(ttl := s.ttl[key := seconds]) && t.ttl[key] == seconds
    ensures Untouched(s, t, {key})
    ensures Valid(s) ==> Valid(t)
  {
    if !Exists(s, key) then s
    else if seconds <= 0 then Del(s, key)
    else s.(ttl := s.ttl[key := seconds])
  }
}

=== FILE: client.dfy ===
/** The client path: submitting a call and clearing its cache slot. */
module Client {
  import opened Base
  import opened Data
  import opened Broker
  import opened Keyspace
  import opened Registry
  import opened Resolver

  /** The client-side handle: the result id and, once known, the outcome.
      `result == None` stands for the source's `unset` sentinel. */
  datatype AsyncResult = AsyncResult(id: string, result: Option<Value>)

  /** `_enqueue_method`: pushes the call record on the left of the method's queue. */
  function EnqueueMethod(bus: Bus, s: Broker, methodName: string, args: seq<Value>, kwargs: map<string, Value>, resultId: string)
    : (t: Broker)
    ensures CallList(t, CallsKey(bus, methodName)) == [CallRecord(args, kwargs, resultId)] + CallList(s, CallsKey(bus, methodName))
    ensures forall k :: k != CallsKey(bus, methodName) ==> CallList(t, k) == CallList(s, k)
    ensures t.hashes == s.hashes && t.results == s.results && t.strings == s.strings && t.ttl == s.ttl
    ensures Valid(s) ==> Valid(t)
  {
    LPush(s, CallsKey(bus, methodName), CallRecord(args, kwargs, resultId))
  }

  /** The cache key a submission resolves to, when the method is registered,
      importable and its arguments resolve. */
  ghost predicate Resolves(bus: Bus, s: Broker, table: FunctionTable, methodName: string, args: seq<Value>, kwargs: map<string, Value>) {
    && GetMethodOptions(bus, s, table, methodName).Ok?
    && RedisCacheKey(bus, methodName, GetMethodOptions(bus, s, table, methodName).value, args, kwargs).Ok?
  }

  /** The submission hits the cache: the method has a template and the
      resolved key holds a value. */
  ghost predicate CacheHit(bus: Bus, s: Broker, table: FunctionTable, methodName: string, args: seq<Value>, kwargs: map<string, Value>) {
    && Resolves(bus, s, table, methodName, args, kwargs)
    && var key := RedisCacheKey(bus, methodName, GetMethodOptions(bus, s, table, methodName).value, args, kwargs).value;
       key.Some? && Get(s, key.value).Some?
  }

  /** `run_method`: on a cache hit returns a handle already resolved to the
      cached value and creates no work; otherwise pushes exactly one call
      record and returns a pending handle. Errors (unknown method, failed
      import, binding or template errors) are raised before any queue is
      touched. The result id is the caller's, standing for a fresh uuid. */
  function RunMethod(bus: Bus, s: Broker, table: FunctionTable, methodName: string,
                     args: seq<Value>, kwargs: map<string, Value>, resultId: string): (r: Step<AsyncResult>)
    ensures GetMethodOptions(bus, s, table, methodName).Err? ==>
      r == Step(s, Err(GetMethodOptions(bus, s, table, methodName).error))
    ensures !Resolves(bus, s, table, methodName, args, kwargs) ==> r.out.Err?
    ensures Resolves(bus, s, table, methodName, args, kwargs) ==>
      var key := RedisCacheKey(bus, methodName, GetMethodOptions(bus, s, table, methodName).value, args, kwargs).value;
      (r.out.Err? <==> key.Some? && Exists(s, key.value) && Get(s, key.value).None?)
    ensures r.out.Err? ==> r.state == s
    ensures r.out.Ok? ==> r.out.value.id == resultId
    ensures r.out.Ok? ==> (r.out.value.result.Some? <==> CacheHit(bus, s, table, methodName, args, kwargs))
    ensures CacheHit(bus, s, table, methodName, args, kwargs) ==>
      var key := RedisCacheKey(bus, methodName, GetMethodOptions(bus, s, table, methodName).value, args, kwargs).value.value;
      r == Step(s, Ok(AsyncResult(resultId, Get(s, key))))
    ensures r.out.Ok? && r.out.value.result.None? ==>
      && CallList(r.state, CallsKey(bus, methodName)) == [CallRecord(args, kwargs, resultId)] + CallList(s, CallsKey(bus, methodName))
      && (forall k :: k != CallsKey(bus, methodName) ==> CallList(r.state, k) == CallList(s, k))
      && r.state.hashes == s.hashes && r.state.results == s.results && r.state.strings == s.strings && r.state.ttl == s.ttl
    ensures Valid(s) ==> Valid(r.state)
  {
    match GetMethodOptions(bus, s, table, methodName)
    case Err(e) => Step(s, Err(e))
    case Ok(opts) =>
      match CheckCache(bus, s, methodName, opts, args, kwargs)
      case Err(e) => Step(s, Err(e))
      case Ok(None) => Step(EnqueueMethod(bus, s, methodName, args, kwargs, resultId), Ok(AsyncResult(resultId, None)))
      case Ok(Some(v)) => Step(s, Ok(AsyncResult(resultId, Some(v))))
  }

  /** `clear_method_cache`: deletes the one cache slot the call resolves to;
      nothing happens for a method without a template. */
  function ClearMethodCache(bus: Bus, s: Broker, table: FunctionTable, methodName: string,
                            args: seq<Value>, kwargs: map<string, Value>): (r: Step<()>)
    ensures r.out.Err? <==> !Resolves(bus, s, table, methodName, args, kwargs)
    ensures r.out.Err? ==> r.state == s
    ensures GetMethodOptions(bus, s, table, methodName).Ok? && GetMethodOptions(bus, s, table, methodName).value.ck.None? ==>
      r == Step(s, Ok(()))
    ensures (Resolves(bus, s, table, methodName, args, kwargs)
             && RedisCacheKey(bus, methodName, GetMethodOptions(bus, s, table, methodName).value, args, kwargs).value.Some?) ==>
      var key := RedisCacheKey(bus, methodName, GetMethodOptions(bus, s, table, methodName).value, args, kwargs).value.value;
      && !Exists(r.state, key)
      && (forall k :: k != key ==> Get(r.state, k) == Get(s, k))
      && (forall k :: k != key ==> CallList(r.state, k) == CallList(s, k) && ResultList(r.state, k) == ResultList(s, k))
      && (forall k :: k != key ==> HashOf(r.state, k) == HashOf(s, k))
    ensures Valid(s) ==> Valid(r.state)
  {
    match GetMethodOptions(bus, s, table, methodName)
    case Err(e) => Step(s, Err(e))
    case Ok(opts) =>
      match RedisCacheKey(bus, methodName, opts, args, kwargs)
      case Err(e) => Step(s, Err(e))
      case Ok(None) => Step(s, Ok(()))
      case Ok(Some(key)) => Step(Del(s, key), Ok(()))
  }
}

=== FILE: data.dfy ===
/** The values that travel through the broker. Pickle and JSON encoding are
    taken as faithful (decoding an encoded value gives it back), so stored
    payloads are the decoded values themselves. */
module Data {
  import opened Base
  import opened Strings

  /** A Python exception object: its class name and message. */
  datatype Fault = Fault(kind: string, message: string)

  /** The Python objects the model distinguishes. An `ExcValue` is any object
      for which `isinstance(result, Exception)` holds. */
  datatype Value =
    | NoneValue
    | IntValue(i: int)
    | StrValue(s: string)
    | ExcValue(fault: Fault)

  /** Python's `str(v)`, which is what `str.format` substitutes for a plain
      `{name}` field. */
  function Str(v: Value): string
  {
    match v
    case NoneValue => "None"
    case IntValue(i) => IntToString(i)
    case StrValue(s) => s
    case ExcValue(f) => f.message
  }

  /** The pickled `[args, kwargs, result_id]` triple pushed onto a call queue. */
  datatype CallRecord = CallRecord(args: seq<Value>, kwargs: map<string, Value>, resultId: string)

  /** The JSON object `{'fn': ..., 'ck': ...}` stored in the methods hash. */
  datatype MethodSpec = MethodSpec(fn: string, ck: Option<string>)
}

=== FILE: glob.dfy ===
/** Shell-style name matching as `fnmatch.filter` applies it to method names:
    `*` matches any run of characters, `?` any single character, every other
    character itself. */
module Glob {

  predicate Match(p: string, s: string)
    decreases |p| + |s|
  {
    if |p| == 0 then |s| == 0
    else if p[0] == '*' then Match(p[1..], s) || (|s| > 0 && Match(p, s[1..]))
    else if |s| == 0 then false
    else if p[0] == '?' then Match(p[1..], s[1..])
    else p[0] == s[0] && Match(p[1..], s[1..])
  }

  /** A pattern that `fnmatch` reads character for character: no wildcard,
      and no `[`, which would open a character class. */
  predicate Literal(p: string) {
    forall i :: 0 <= i < |p| ==> p[i] != '*' && p[i] != '?' && p[i] != '['
  }

  /** `*` alone matches every name. */
  lemma {:induction false} StarMatchesAll(s: string)
    ensures Match("*", s)
  {
    if |s| > 0 {
      StarMatchesAll(s[1..]);
    }
  }

  /** `prefix*` matches exactly the names that start with `prefix`. */
  lemma {:induction false} PrefixStar(prefix: string, s: string)
    requires Literal(prefix)
    ensures Match(prefix + "*", s) <==> prefix <= s
  {
    if |prefix| == 0 {
      assert prefix + "*" == "*";
      StarMatchesAll(s);
    } else {
      var p := prefix + "*";
      assert p[1..] == prefix[1..] + "*";
      assert Literal(prefix[1..]);
      if |s| > 0 {
        PrefixStar(prefix[1..], s[1..]);
        assert prefix <= s <==> prefix[0] == s[0] && prefix[1..] <= s[1..];
      }
    }
  }

  /** `fnmatch.filter(names, p)`: the names that match, in their original order. */
  function Filter(names: seq<string>, p: string): (r: seq<string>)
    ensures forall n :: n in r <==> n in names && Match(p, n)
    ensures |r| <= |names|
    ensures Distinct(names) ==> Distinct(r)
  {
    if |names| == 0 then []
    else
      var rest := Filter(names[1..], p);
      assert forall n :: n in names <==> n == names[0] || n in names[1..];
      if Match(p, names[0]) then [names[0]] + rest else rest
  }

  /** Filtering keeps the listed order: a name appended to the list is
      appended to the result when it matches. */
  lemma {:induction false} FilterSnoc(names: seq<string>, x: string, p: string)
    ensures Filter(names + [x], p) == Filter(names, p) + (if Match(p, x) then [x] else [])
  {
    if |names| == 0 {
      assert names + [x] == [x];
    } else {
      assert (names + [x])[1..] == names[1..] + [x];
      FilterSnoc(names[1..], x, p);
    }
  }

  predicate Distinct<T(==)>(xs: seq<T>) {
    forall i, j :: 0 <= i < j < |xs| ==> xs[i] != xs[j]
  }
}

=== FILE: keyspace.dfy ===
/** Bus configuration, the `_k` key builder and the bus's error vocabulary. */
module Keyspace {
  import opened Base
  import opened Strings
  import opened Broker
  import Signatures
  import Template

  /** A bus: its name (the first segment of every key), the optional
      registration prefix ("" when none; Python treats None and "" alike),
      and the two configured timeouts (None = never expire). */
  datatype Bus = Bus(name: string, prefix: string, resultExpire: Option<int>, cacheExpire: Option<int>)

  const DefaultResultExpire := 3600
  const DefaultCacheExpire := 3600 * 24

  /** `Bus(name)` with every other argument left at its default. */
  function NewBus(name: string): (b: Bus)
    ensures b.prefix == "" && b.resultExpire == Some(3600) && b.cacheExpire == Some(86400)
  {
    Bus(name, "", Some(DefaultResultExpire), Some(DefaultCacheExpire))
  }

  /** The pattern `serve_once` and `serve` use when given none. */
  function ServePattern(bus: Bus): (p: string)
    ensures p == bus.prefix + "*"
  {
    if bus.prefix != "" then bus.prefix + "*" else "*"
  }

  /** What a bus operation raises. */
  datatype BusError =
    | MainModule(fn: string)          // registering a function of `__main__`
    | UnknownMethod                   // `_get_method_options` on an unregistered name
    | ImportFailed(fn: string)        // `import_string` cannot find the function
    | BindFailed(bind: Signatures.BindError)
    | FormatFailed(format: Template.FormatError)
    | WrongType(key: string)          // `GET` on a key that holds a list or hash
    | NothingToServe                  // `serve` with a pattern no method matches
    | NoOptions(methodName: string)   // `serve`'s per-method options lookup misses

  /** The broker after an operation, and what the operation returned or
      raised. Side effects made before a raise stay in `state`. */
  datatype Step<T> = Step(state: Broker, out: Result<T, BusError>)

  /** `_k(*segs)`: the bus name and the segments joined with ':'. */
  function Key(bus: Bus, segs: seq<string>): string
  {
    Join(":", [bus.name] + segs)
  }

  lemma KeyShape(bus: Bus, segs: seq<string>)
    requires |segs| > 0
    ensures Key(bus, segs) == bus.name + ":" + Join(":", segs)
  {
    JoinCons(":", bus.name, segs);
  }

  function MethodsKey(bus: Bus): (k: string)
    ensures k == bus.name + ":methods"
  {
    KeyShape(bus, ["methods"]);
    Key(bus, ["methods"])
  }

  function CallsKey(bus: Bus, methodName: string): (k: string)
    ensures k == bus.name + ":calls:" + methodName
  {
    KeyShape(bus, ["calls", methodName]);
    JoinCons(":", "calls", [methodName]);
    Key(bus, ["calls", methodName])
  }

  function ResultsKey(bus: Bus, id: string): (k: string)
    ensures k == bus.name + ":results:" + id
  {
    KeyShape(bus, ["results", id]);
    JoinCons(":", "results", [id]);
    Key(bus, ["results", id])
  }

  function CacheKey(bus: Bus, methodName: string, resolved: string): (k: string)
    ensures k == bus.name + ":cache:" + methodName + ":" + resolved
  {
    KeyShape(bus, ["cache", methodName, resolved]);
    JoinCons(":", "cache", [methodName, resolved]);
    JoinCons(":", methodName, [resolved]);
    Key(bus, ["cache", methodName, resolved])
  }

  /** Two keys built on the same stem differ when their tails do. */
  lemma StemInjective(stem: string, a: string, b: string)
    requires stem + a == stem + b
    ensures a == b
  {
    assert a == (stem + a)[|stem|..];
    assert b == (stem + b)[|stem|..];
  }

  lemma CallsKeyInjective(bus: Bus, m1: string, m2: string)
    requires CallsKey(bus, m1) == CallsKey(bus, m2)
    ensures m1 == m2
  {
    StemInjective(bus.name + ":calls:", m1, m2);
  }

  /** Cache slots of one method differ when their resolved templates do. */
  lemma CacheKeyInjective(bus: Bus, methodName: string, x: string, y: string)
    ensures x != y ==> CacheKey(bus, methodName, x) != CacheKey(bus, methodName, y)
  {
    if CacheKey(bus, methodName, x) == CacheKey(bus, methodName, y) {
      StemInjective(bus.name + ":cache:" + methodName + ":", x, y);
    }
  }

  lemma ResultsKeyInjective(bus: Bus, id1: string, id2: string)
    requires ResultsKey(bus, id1) == ResultsKey(bus, id2)
    ensures id1 == id2
  {
    StemInjective(bus.name + ":results:", id1, id2);
  }

  /** The four kinds of key a bus writes never coincide, so a queue, a result
      slot, a cache slot and the methods hash never share a Redis key. */
  lemma KeyKindsDisjoint(bus: Bus, m: string, id: string, m': string, k: string)
    ensures CallsKey(bus, m) != ResultsKey(bus, id)
    ensures CallsKey(bus, m) != CacheKey(bus, m', k)
    ensures CallsKey(bus, m) != MethodsKey(bus)
    ensures ResultsKey(bus, id) != CacheKey(bus, m', k)
    ensures ResultsKey(bus, id) != MethodsKey(bus)
    ensures CacheKey(bus, m', k) != MethodsKey(bus)
  {
    var n := |bus.name| + 1;
    assert CallsKey(bus, m)[n] == 'c' && CallsKey(bus, m)[n + 2] == 'l';
    assert ResultsKey(bus, id)[n] == 'r';
    assert CacheKey(bus, m', k)[n] == 'c' && CacheKey(bus, m', k)[n + 2] == 'c';
    assert MethodsKey(bus)[n] == 'm';
  }
}

=== FILE: registry.dfy ===
/** Method registration and lookup in the `<name>:methods` hash. */
module Registry {
  import opened Base
  import opened Strings
  import opened Data
  import opened Broker
  import opened Signatures
  import opened Keyspace
  import opened Glob

  /** What `register_method` is given: a dotted path, or a function object,
      which stands for `func.__module__ + '.' + func.__name__`. */
  datatype Target = Path(path: string) | Callable(moduleName: string, funcName: string)

  function FnPath(t: Target): string
  {
    match t
    case Path(p) => p
    case Callable(m, n) => m + "." + n
  }

  /** The functions `import_string` can find, by dotted path. */
  type FunctionTable = map<string, Function>

  /** The `Method` object `get_method` hands out. */
  datatype Method = Method(name: string, fn: string, cacheKey: Option<string>)

  /** A method's decoded options with its function imported. */
  datatype Options = Options(fn: string, ck: Option<string>, func: Function)

  /** The name a registration uses: the explicit one, else the last dotted
      component of the function path behind the bus prefix. */
  function MethodName(bus: Bus, fn: string, name: Option<string>): (r: string)
    ensures name.Some? ==> r == name.value
    ensures name.None? ==> |bus.prefix| <= |r| && r[..|bus.prefix|] == bus.prefix
    ensures name.None? ==> var tail := r[|bus.prefix|..];
      '.' !in tail && |tail| <= |fn| && fn[|fn| - |tail|..] == tail
      && (|tail| == |fn| || fn[|fn| - |tail| - 1] == '.')
  {
    if name.Some? then name.value
    else
      var last := LastSegment(fn, '.');
      if bus.prefix != "" then bus.prefix + last else last
  }

  /** `get_method(name)`: the registered record, if any. */
  function GetMethod(bus: Bus, s: Broker, name: string): (r: Option<Method>)
    ensures r.Some? <==> HGet(s, MethodsKey(bus), name).Some?
    ensures r.Some? ==> var spec := HGet(s, MethodsKey(bus), name).value;
      r.value.name == name && r.value.fn == spec.fn && r.value.cacheKey == spec.ck
  {
    match HGet(s, MethodsKey(bus), name)
    case None => None
    case Some(spec) => Some(Method(name, spec.fn, spec.ck))
  }

  /** `register_method(func, name, cache_key)`: refuses functions of the
      `__main__` module, which a separate worker process cannot import;
      otherwise stores the record and returns `get_method(name)`. */
  function RegisterMethod(bus: Bus, s: Broker, target: Target, name: Option<string>, cacheKey: Option<string>)
    : (r: Step<Option<Method>>)
    ensures r.out.Err? <==> "__main__." <= FnPath(target)
    ensures r.out.Err? ==> r.state == s && r.out.error == MainModule(FnPath(target))
    ensures r.out.Ok? ==>
      var n := MethodName(bus, FnPath(target), name);
      && r.out.value == Some(Method(n, FnPath(target), cacheKey))
      && GetMethod(bus, r.state, n) == r.out.value
      && (forall other :: other != n ==> GetMethod(bus, r.state, other) == GetMethod(bus, s, other))
    ensures r.state.calls == s.calls && r.state.results == s.results && r.state.strings == s.strings
    ensures Valid(s) ==> Valid(r.state)
  {
    var fn := FnPath(target);
    var n := MethodName(bus, fn, name);
    if "__main__." <= fn then Step(s, Err(MainModule(fn)))
    else
      var t := HSet(s, MethodsKey(bus), n, MethodSpec(fn, cacheKey));
      Step(t, Ok(GetMethod(bus, t, n)))
  }

  /** `_get_method_options(name)`: the stored record with its function
      imported. An unknown name raises (the source's message shows the missing
      record, None, rather than the name); an unimportable path raises too. */
  function GetMethodOptions(bus: Bus, s: Broker, table: FunctionTable, name: string): (r: Result<Options, BusError>)
    ensures HGet(s, MethodsKey(bus), name).None? ==> r == Err(UnknownMethod)
    ensures r.Ok? <==> HGet(s, MethodsKey(bus), name).Some? && HGet(s, MethodsKey(bus), name).value.fn in table
    ensures r.Ok? ==> var spec := HGet(s, MethodsKey(bus), name).value;
      r.value.fn == spec.fn && r.value.ck == spec.ck && r.value.func == table[spec.fn]
  {
    match HGet(s, MethodsKey(bus), name)
    case None => Err(UnknownMethod)
    case Some(spec) =>
      if spec.fn in table then Ok(Options(spec.fn, spec.ck, table[spec.fn]))
      else Err(ImportFailed(spec.fn))
  }

  /** `all_methods()`: the registered names. */
  function AllMethods(bus: Bus, s: Broker): (names: seq<string>)
    ensures forall n :: n in names <==> GetMethod(bus, s, n).Some?
  {
    HKeysLookup(HashOf(s, MethodsKey(bus)));
    HKeys(s, MethodsKey(bus))
  }

  /** A well-formed broker lists each registered name once. */
  lemma AllMethodsDistinct(bus: Bus, s: Broker)
    requires Valid(s)
    ensures Distinct(AllMethods(bus, s))
  {
    var fs := HashOf(s, MethodsKey(bus));
    assert UniqueFields(fs);
    FieldNamesAt(fs);
  }

  lemma {:induction false} FieldNamesAt(fs: Fields)
    ensures |FieldNames(fs)| == |fs|
    ensures forall i :: 0 <= i < |fs| ==> FieldNames(fs)[i] == fs[i].0
  {
    if |fs| > 0 {
      FieldNamesAt(fs[1..]);
    }
  }

  lemma {:induction false} HKeysLookup(fs: Fields)
    ensures forall n :: n in FieldNames(fs) <==> Lookup(fs, n).Some?
  {
    if |fs| > 0 {
      HKeysLookup(fs[1..]);
    }
  }
}

=== FILE: resolver.dfy ===
/** Cache-key resolution: binding a call against the method's declared
    parameters and filling the template, then the cache lookup built on it. */
module Resolver {
  import opened Base
  import opened Strings
  import opened Data
  import opened Broker
  import opened Signatures
  import opened Template
  import opened Keyspace
  import opened Registry

  /** `_get_redis_cache_key`: None for a method without a template; otherwise
      `<name>:cache:<method>:<template formatted with the bound arguments>`,
      or the binding or formatting error. */
  function RedisCacheKey(bus: Bus, methodName: string, opts: Options, args: seq<Value>, kwargs: map<string, Value>)
    : (r: Result<Option<string>, BusError>)
    ensures opts.ck.None? ==> r == Ok(None)
    ensures opts.ck.Some? ==> (r.Ok? <==>
      BindArguments(opts.func.params, args, kwargs).Ok?
      && Format(opts.ck.value, BindArguments(opts.func.params, args, kwargs).value).Ok?)
    ensures opts.ck.Some? && BindArguments(opts.func.params, args, kwargs).Err? ==>
      r == Err(BindFailed(BindArguments(opts.func.params, args, kwargs).error))
    ensures opts.ck.Some? && r.Ok? ==> r.value.Some?
    ensures r.Ok? && r.value.Some? ==> exists resolved :: r.value.value == CacheKey(bus, methodName, resolved)
  {
    match opts.ck
    case None => Ok(None)
    case Some(template) =>
      match BindArguments(opts.func.params, args, kwargs)
      case Err(e) => Err(BindFailed(e))
      case Ok(bound) =>
        match Format(template, bound)
        case Err(e) => Err(FormatFailed(e))
        case Ok(resolved) => Ok(Some(CacheKey(bus, methodName, resolved)))
  }

  /** For a template given in parsed form, the key holds the reference
      expansion of the template over the bound arguments. */
  lemma ResolveParsed(bus: Bus, methodName: string, opts: Options, args: seq<Value>, kwargs: map<string, Value>,
                      segs: seq<Segment>)
    requires opts.ck == Some(Render(segs))
    requires BindArguments(opts.func.params, args, kwargs).Ok?
    requires Fits(segs, BindArguments(opts.func.params, args, kwargs).value)
    ensures RedisCacheKey(bus, methodName, opts, args, kwargs)
         == Ok(Some(CacheKey(bus, methodName,
              Expand(segs, BindArguments(opts.func.params, args, kwargs).value))))
  {
    FormatRender(segs, BindArguments(opts.func.params, args, kwargs).value);
  }

  /** Passing an argument by keyword instead of by position resolves to the
      same cache key: both forms address one cache slot. */
  lemma ResolveKeywordForm(bus: Bus, methodName: string, opts: Options, args: seq<Value>, kwargs: map<string, Value>)
    requires DistinctNames(opts.func.params)
    requires 0 < |args| <= |opts.func.params|
    requires opts.func.params[|args| - 1].name !in kwargs
    ensures RedisCacheKey(bus, methodName, opts, args, kwargs)
         == RedisCacheKey(bus, methodName, opts, args[..|args| - 1],
                          kwargs[opts.func.params[|args| - 1].name := args[|args| - 1]])
  {
    PositionalAsKeyword(opts.func.params, args, kwargs);
  }

  /** A template `{seed}` over a first parameter named `seed`, as `uuid` is
      registered in the package's cache tests: a call with one whole-number
      argument resolves to that number's decimal digits, whatever further
      parameters the function declares, since `bind_arguments` does not ask
      for them. */
  lemma SeedKey(bus: Bus, methodName: string, opts: Options, n: nat)
    requires opts.ck == Some("{seed}")
    requires DistinctNames(opts.func.params) && |opts.func.params| > 0 && opts.func.params[0].name == "seed"
    ensures RedisCacheKey(bus, methodName, opts, [IntValue(n)], map[])
         == Ok(Some(CacheKey(bus, methodName, NatToString(n))))
  {
    var params := opts.func.params;
    BindArgumentsOk(params, [IntValue(n)], map[]);
    BindArgumentsValue(params, [IntValue(n)], map[], 0);
    var bound := BindArguments(params, [IntValue(n)], map[]).value;
    var segs := [Field("seed")];
    assert Render(segs) == "{seed}";
    assert !IsPositional("seed") by { assert !IsDigit("seed"[0]); }
    assert Fits(segs, bound);
    assert Expand(segs, bound) == NatToString(n);
    ResolveParsed(bus, methodName, opts, [IntValue(n)], map[], segs);
  }

  /** Distinct seeds address distinct cache slots, so `uuid.run(1)` and
      `uuid.run(2)` never share a cached value. */
  lemma DistinctSeeds(bus: Bus, methodName: string, opts: Options, a: nat, b: nat)
    requires opts.ck == Some("{seed}")
    requires DistinctNames(opts.func.params) && |opts.func.params| > 0 && opts.func.params[0].name == "seed"
    requires a != b
    ensures RedisCacheKey(bus, methodName, opts, [IntValue(a)], map[])
         != RedisCacheKey(bus, methodName, opts, [IntValue(b)], map[])
  {
    SeedKey(bus, methodName, opts, a);
    SeedKey(bus, methodName, opts, b);
    NatToStringInjective(a, b);
    CacheKeyInjective(bus, methodName, NatToString(a), NatToString(b));
  }

  /** The lookup half of `_check_cache`: `EXISTS` then `GET` on a resolved key. */
  function LookupCache(s: Broker, key: Option<string>): (r: Result<Option<Value>, BusError>)
    ensures key.None? ==> r == Ok(None)
    ensures r.Err? <==> key.Some? && Exists(s, key.value) && Get(s, key.value).None?
    ensures r.Ok? ==> r.value == (if key.Some? then Get(s, key.value) else None)
  {
    match key
    case None => Ok(None)
    case Some(k) =>
      if Exists(s, k) then
        match Get(s, k)
        case Some(v) => Ok(Some(v))
        case None => Err(WrongType(k))
      else Ok(None)
  }

  /** `_check_cache`: the cached outcome when the method has a template and
      its resolved key exists; None stands for the source's `unset`. */
  function CheckCache(bus: Bus, s: Broker, methodName: string, opts: Options, args: seq<Value>, kwargs: map<string, Value>)
    : (r: Result<Option<Value>, BusError>)
    ensures RedisCacheKey(bus, methodName, opts, args, kwargs).Err? ==>
      r == Err(RedisCacheKey(bus, methodName, opts, args, kwargs).error)
    ensures opts.ck.None? ==> r == Ok(None)
    ensures r.Ok? && r.value.Some? <==>
      RedisCacheKey(bus, methodName, opts, args, kwargs).Ok?
      && RedisCacheKey(bus, methodName, opts, args, kwargs).value.Some?
      && Get(s, RedisCacheKey(bus, methodName, opts, args, kwargs).value.value).Some?
    ensures r.Ok? && r.value.Some? ==> r.value == Get(s, RedisCacheKey(bus, methodName, opts, args, kwargs).value.value)
  {
    match RedisCacheKey(bus, methodName, opts, args, kwargs)
    case Err(e) => Err(e)
    case Ok(key) => LookupCache(s, key)
  }
}

=== FILE: results.dfy ===
/** The reading side: waiting for a call's outcome in its result slot, and
    the client handle that remembers it. */
module Results {
  import opened Base
  import opened Data
  import opened Broker
  import opened Keyspace
  import opened Client

  /** What reading a result yields: nothing yet (where `BLPOP` would block),
      a value the call returned, or the exception it raised. */
  datatype Read = WouldBlock | Returned(value: Value) | Raised(fault: Fault)

  /** The outcome a stored value stands for: an exception object is raised
      again, anything else is returned. */
  function Outcome(v: Value): (r: Read)
    ensures r != WouldBlock
    ensures r.Raised? <==> v.ExcValue?
  {
    if v.ExcValue? then Raised(v.fault) else Returned(v)
  }

  // ---- get_async_result ---------------------------------------------------

  /** `get_async_result` as written: `BLPOP` the head of the result slot, push
      it back on the tail, and raise it when it is an exception. */
  function GetAsyncResultAsWritten(bus: Bus, s: Broker, id: string): (r: (Broker, Read))
    ensures var xs := ResultList(s, ResultsKey(bus, id));
      && (xs == [] <==> r.1 == WouldBlock)
      && (xs == [] ==> r.0 == s)
      && (xs != [] ==> r.1 == Outcome(xs[0]) && ResultList(r.0, ResultsKey(bus, id)) == xs[1..] + [xs[0]])
    ensures Untouched(s, r.0, {ResultsKey(bus, id)})
    ensures Valid(s) ==> Valid(r.0)
  {
    var key := ResultsKey(bus, id);
    var p := BLPop(s, key);
    match p.1
    case None => (s, WouldBlock)
    case Some(v) => (RPush(p.0, key, v), Outcome(v))
  }

  /** `get_async_result` as intended: the head of the result slot is read
      and the slot, timeout included, is left as it was. */
  function GetAsyncResult(bus: Bus, s: Broker, id: string): (r: Read)
    ensures var xs := ResultList(s, ResultsKey(bus, id));
      && (xs == [] <==> r == WouldBlock)
      && (xs != [] ==> r == Outcome(xs[0]))
  {
    match LIndex0(s, ResultsKey(bus, id))
    case None => WouldBlock
    case Some(v) => Outcome(v)
  }

  /** Both versions read the same outcome; they differ only in what they do
      to the broker. */
  lemma GetAsyncResultReadsAlike(bus: Bus, s: Broker, id: string)
    ensures GetAsyncResultAsWritten(bus, s, id).1 == GetAsyncResult(bus, s, id)
  {
  }

  /** As written, reading the usual single-outcome slot leaves its contents
      as they were but drops the timeout `_exec_function` set on it: the
      `BLPOP` of the last element deletes the key and the `RPUSH` recreates
      it without one, so the result is never expired. */
  lemma GetAsyncResultDropsTimeout(bus: Bus, s: Broker, id: string)
    requires |ResultList(s, ResultsKey(bus, id))| == 1
    ensures var t := GetAsyncResultAsWritten(bus, s, id).0;
      && ResultList(t, ResultsKey(bus, id)) == ResultList(s, ResultsKey(bus, id))
      && ResultsKey(bus, id) !in t.ttl
  {
    var key := ResultsKey(bus, id);
    var p := BLPop(s, key);
    assert key !in p.0.ttl;
    assert RPush(p.0, key, p.1.value).ttl == p.0.ttl;
  }

  /** As written, a slot holding two different outcomes is rotated by each
      read, so two reads of the same id disagree. */
  lemma GetAsyncResultRotates(bus: Bus, s: Broker, id: string)
    requires var xs := ResultList(s, ResultsKey(bus, id)); |xs| == 2 && Outcome(xs[0]) != Outcome(xs[1])
    ensures var first := GetAsyncResultAsWritten(bus, s, id);
      first.1 != GetAsyncResultAsWritten(bus, first.0, id).1
  {
    var xs := ResultList(s, ResultsKey(bus, id));
    var first := GetAsyncResultAsWritten(bus, s, id);
    assert ResultList(first.0, ResultsKey(bus, id)) == [xs[1], xs[0]];
  }

  // ---- AsyncResult.get ------------------------------------------------------

  /** `AsyncResult.get` as written: a handle that already holds a value (a
      cache hit) returns it, even an exception object; otherwise it reads
      the result slot and remembers a returned value, but not a raised one
      (the raise leaves `self.result` unset). */
  function AsyncGetAsWritten(bus: Bus, s: Broker, h: AsyncResult): (r: (Broker, AsyncResult, Read))
    ensures h.result.Some? ==> r == (s, h, Returned(h.result.value))
    ensures h.result.None? ==>
      var p := GetAsyncResultAsWritten(bus, s, h.id);
      && r.0 == p.0 && r.2 == p.1 && r.1.id == h.id
      && (r.1.result.Some? <==> p.1.Returned?)
      && (p.1.Returned? ==> r.1.result == Some(p.1.value))
  {
    match h.result
    case Some(v) => (s, h, Returned(v))
    case None =>
      var p := GetAsyncResultAsWritten(bus, s, h.id);
      match p.1
      case Returned(v) => (p.0, h.(result := Some(v)), p.1)
      case _ => (p.0, h, p.1)
  }

  /** `AsyncResult.get` as intended: a remembered outcome is treated like a
      read one, so a remembered exception is raised; the result slot is read
      without being changed. */
  function AsyncGet(bus: Bus, s: Broker, h: AsyncResult): (r: (AsyncResult, Read))
    ensures r.0.id == h.id
    ensures h.result.Some? ==> r == (h, Outcome(h.result.value))
    ensures h.result.None? ==> r.1 == GetAsyncResult(bus, s, h.id)
    ensures r.0.result.Some? ==> r.1 == Outcome(r.0.result.value)
    ensures r.1.Returned? ==> r.0.result == Some(r.1.value)
  {
    match h.result
    case Some(v) => (h, Outcome(v))
    case None =>
      var read := GetAsyncResult(bus, s, h.id);
      match read
      case Returned(v) => (h.(result := Some(v)), read)
      case _ => (h, read)
  }

  /** Calling `get` again on the handle it returned gives the same outcome
      and, once a value was returned, needs the broker no more. */
  lemma AsyncGetIdempotent(bus: Bus, s: Broker, h: AsyncResult, s': Broker)
    ensures var first := AsyncGet(bus, s, h);
      first.1 != WouldBlock && (h.result.Some? || first.1.Returned?) ==>
        AsyncGet(bus, s', first.0) == first
  {
  }

  /** For a handle that was not resolved in advance, both versions of `get`
      see the same outcome. */
  lemma AsyncGetAgreesWhenPending(bus: Bus, s: Broker, h: AsyncResult)
    requires h.result.None?
    ensures AsyncGetAsWritten(bus, s, h).1 == AsyncGet(bus, s, h).0
    ensures AsyncGetAsWritten(bus, s, h).2 == AsyncGet(bus, s, h).1
  {
    GetAsyncResultReadsAlike(bus, s, h.id);
  }

  /** As written, a handle resolved in advance to a cached exception returns
      the exception object instead of raising it, whereas the same outcome
      read from the result slot is raised. */
  lemma AsyncGetReturnsCachedFault(bus: Bus, s: Broker, h: AsyncResult, f: Fault)
    requires h.result == Some(ExcValue(f))
    ensures AsyncGetAsWritten(bus, s, h).2 == Returned(ExcValue(f))
    ensures AsyncGet(bus, s, h).1 == Raised(f)
  {
  }
}

=== FILE: scenarios.dfy ===
/** End-to-end runs of the bus: a client submits a call, a worker's serving
    loop takes it, and the client reads the outcome back, with and without
    the result cache. */
module Scenarios {
  import opened Base
  import opened Glob
  import opened Data
  import opened Signatures
  import opened Broker
  import opened Keyspace
  import opened Registry
  import opened Resolver
  import opened Client
  import opened Worker
  import opened Serving
  import opened Results

  /** Pushing a record on an empty queue and popping it again gives the record
      back and leaves every other key as it was, existence included. */
  lemma PushPop(s: Broker, key: string, x: CallRecord)
    requires CallList(s, key) == []
    ensures var p := RPop(LPush(s, key, x), key);
      && p.1 == Some(x) && CallList(p.0, key) == []
      && Untouched(s, p.0, {key})
      && forall k :: k != key ==> (Exists(p.0, k) <==> Exists(s, k))
  {
    var pushed := LPush(s, key, x);
    assert CallList(pushed, key) == [x];
    assert pushed.calls == s.calls[key := [x]];
  }

  /** On a cache miss `run_method` pushes one record and returns a pending
      handle. */
  lemma SubmitMiss(bus: Bus, s: Broker, table: FunctionTable, m: string,
                   args: seq<Value>, kwargs: map<string, Value>, id: string)
    requires GetMethodOptions(bus, s, table, m).Ok?
    requires CheckCache(bus, s, m, GetMethodOptions(bus, s, table, m).value, args, kwargs) == Ok(None)
    ensures RunMethod(bus, s, table, m, args, kwargs, id)
         == Step(LPush(s, CallsKey(bus, m), CallRecord(args, kwargs, id)), Ok(AsyncResult(id, None)))
  {
  }

  /** When the only non-empty watched queue holds a single record, the next
      turn of the serving loop takes that record and runs it under its own
      method's options. */
  lemma ServeSole(bus: Bus, t: Broker, w: Watch, m: string, rec: CallRecord, entropy: nat)
    requires Covers(w) && m in w.names
    requires CallList(t, CallsKey(bus, m)) == [rec]
    requires forall n :: n in w.names && n != m ==> CallList(t, CallsKey(bus, n)) == []
    ensures var served := ServeStep(bus, t, w, entropy);
      && served.Served? && served.methodName == m && served.rec == rec
      && served.step == ExecFunction(bus, RPop(t, CallsKey(bus, m)).0, m, w.opts[m], rec, entropy)
  {
    var i :| 0 <= i < |w.names| && w.names[i] == m;
    var served := ServeStep(bus, t, w, entropy);
    assert !served.Idle? by {
      assert CallList(t, CallsKey(bus, w.names[i])) != [];
    }
  }

  /** A call submitted while the worker's watched queues are empty and the
      cache misses is enqueued, and the next turn of the serving loop takes
      exactly that call and executes it from the state before submission,
      give or take the emptied queue. */
  lemma SubmitAndServe(bus: Bus, s: Broker, table: FunctionTable, w: Watch, m: string,
                       args: seq<Value>, kwargs: map<string, Value>, id: string, entropy: nat)
    requires Covers(w) && m in w.names
    requires GetMethodOptions(bus, s, table, m) == Ok(w.opts[m])
    requires CheckCache(bus, s, m, w.opts[m], args, kwargs) == Ok(None)
    requires forall n :: n in w.names ==> CallList(s, CallsKey(bus, n)) == []
    ensures var run := RunMethod(bus, s, table, m, args, kwargs, id);
      var rec := CallRecord(args, kwargs, id);
      var served := ServeStep(bus, run.state, w, entropy);
      && run.out == Ok(AsyncResult(id, None))
      && run.state == LPush(s, CallsKey(bus, m), rec)
      && served.Served? && served.methodName == m && served.rec == rec
      && served.step == ExecFunction(bus, RPop(run.state, CallsKey(bus, m)).0, m, w.opts[m], rec, entropy)
  {
    var rec := CallRecord(args, kwargs, id);
    SubmitMiss(bus, s, table, m, args, kwargs, id);
    var t := LPush(s, CallsKey(bus, m), rec);
    forall n | n in w.names && n != m
      ensures CallList(t, CallsKey(bus, n)) == []
    {
      if CallsKey(bus, n) == CallsKey(bus, m) {
        CallsKeyInjective(bus, n, m);
      }
    }
    ServeSole(bus, t, w, m, rec, entropy);
  }

  /** A call to a method without a cache template, served by one turn of the
      worker loop, is read back as the outcome of its function on its
      arguments. */
  lemma RemoteCall(bus: Bus, s: Broker, table: FunctionTable, w: Watch, m: string,
                   args: seq<Value>, kwargs: map<string, Value>, id: string, entropy: nat)
    requires Covers(w) && m in w.names
    requires GetMethodOptions(bus, s, table, m) == Ok(w.opts[m]) && w.opts[m].ck.None?
    requires forall n :: n in w.names ==> CallList(s, CallsKey(bus, n)) == []
    requires ResultList(s, ResultsKey(bus, id)) == [] && Keeps(bus.resultExpire)
    ensures var run := RunMethod(bus, s, table, m, args, kwargs, id);
      var served := ServeStep(bus, run.state, w, entropy);
      var v := Invoke(w.opts[m].func, args, kwargs, entropy);
      && run.out == Ok(AsyncResult(id, None))
      && served.Served? && served.step.out == Ok(v)
      && AsyncGet(bus, served.step.state, run.out.value) == (AsyncResult(id, if v.ExcValue? then None else Some(v)), Outcome(v))
  {
    var opts := w.opts[m];
    var rec := CallRecord(args, kwargs, id);
    SubmitAndServe(bus, s, table, w, m, args, kwargs, id, entropy);
    var run := RunMethod(bus, s, table, m, args, kwargs, id);
    var p := RPop(run.state, CallsKey(bus, m));
    PushPop(s, CallsKey(bus, m), rec);
    ExecOutcome(bus, p.0, m, opts, rec, entropy);
    ExecPublishes(bus, p.0, m, opts, rec, entropy);
    KeyKindsDisjoint(bus, m, id, m, "");
    assert ResultList(p.0, ResultsKey(bus, id)) == [];
  }

  /** `run_method` answers from the cache when the resolved slot holds a
      value, and enqueues when the slot does not exist. */
  lemma SubmitAgainst(bus: Bus, t: Broker, table: FunctionTable, m: string, opts: Options,
                      args: seq<Value>, kwargs: map<string, Value>, again: string)
    requires GetMethodOptions(bus, t, table, m) == Ok(opts) && opts.ck.Some?
    requires RedisCacheKey(bus, m, opts, args, kwargs).Ok?
    ensures var key := RedisCacheKey(bus, m, opts, args, kwargs).value.value;
      var hit := RunMethod(bus, t, table, m, args, kwargs, again);
      && (Get(t, key).Some? ==> hit == Step(t, Ok(AsyncResult(again, Get(t, key)))))
      && (!Exists(t, key) ==> hit.out == Ok(AsyncResult(again, None)))
  {
  }

  /** After `clear_method_cache` a templated call's slot no longer exists and
      the method's options are unchanged. */
  lemma ClearRemoves(bus: Bus, t: Broker, table: FunctionTable, m: string, opts: Options,
                     args: seq<Value>, kwargs: map<string, Value>)
    requires GetMethodOptions(bus, t, table, m) == Ok(opts) && opts.ck.Some?
    requires RedisCacheKey(bus, m, opts, args, kwargs).Ok?
    ensures var cleared := ClearMethodCache(bus, t, table, m, args, kwargs);
      && !Exists(cleared.state, RedisCacheKey(bus, m, opts, args, kwargs).value.value)
      && GetMethodOptions(bus, cleared.state, table, m) == Ok(opts)
  {
    var key := RedisCacheKey(bus, m, opts, args, kwargs).value.value;
    var resolved :| key == CacheKey(bus, m, resolved);
    KeyKindsDisjoint(bus, m, "", m, resolved);
    var cleared := ClearMethodCache(bus, t, table, m, args, kwargs);
    assert HashOf(cleared.state, MethodsKey(bus)) == HashOf(t, MethodsKey(bus));
  }

  /** Serving a templated call that misses, by one step of the `serve` loop
      (the repository's test drains with `serve_once`), stores its outcome
      in the cache slot (deleted at once by a cache timeout that is not
      positive) and leaves the method's options alone. */
  lemma ServeCaches(bus: Bus, s: Broker, table: FunctionTable, w: Watch, m: string,
                    args: seq<Value>, kwargs: map<string, Value>, id: string, entropy: nat)
    requires Covers(w) && m in w.names
    requires GetMethodOptions(bus, s, table, m) == Ok(w.opts[m]) && w.opts[m].ck.Some?
    requires RedisCacheKey(bus, m, w.opts[m], args, kwargs).Ok?
    requires !Exists(s, RedisCacheKey(bus, m, w.opts[m], args, kwargs).value.value)
    requires forall n :: n in w.names ==> CallList(s, CallsKey(bus, n)) == []
    ensures var run := RunMethod(bus, s, table, m, args, kwargs, id);
      var served := ServeStep(bus, run.state, w, entropy);
      var key := RedisCacheKey(bus, m, w.opts[m], args, kwargs).value.value;
      var v := Invoke(w.opts[m].func, args, kwargs, entropy);
      && run.out == Ok(AsyncResult(id, None))
      && served.Served? && served.step.out == Ok(v)
      && GetMethodOptions(bus, served.step.state, table, m) == Ok(w.opts[m])
      && (Keeps(bus.cacheExpire) ==> Get(served.step.state, key) == Some(v))
      && (!Keeps(bus.cacheExpire) ==> !Exists(served.step.state, key))
  {
    var opts := w.opts[m];
    var rec := CallRecord(args, kwargs, id);
    var key := RedisCacheKey(bus, m, opts, args, kwargs).value.value;
    var resolved :| key == CacheKey(bus, m, resolved);
    KeyKindsDisjoint(bus, m, id, m, resolved);
    SubmitAndServe(bus, s, table, w, m, args, kwargs, id, entropy);
    var p := RPop(LPush(s, CallsKey(bus, m), rec), CallsKey(bus, m));
    PushPop(s, CallsKey(bus, m), rec);
    assert CheckCache(bus, p.0, m, opts, args, kwargs) == Ok(None);
    ExecOutcome(bus, p.0, m, opts, rec, entropy);
    ExecCaches(bus, p.0, m, opts, rec, entropy);
    ExecKeepsQueues(bus, p.0, m, opts, rec, entropy);
  }

  /** A call to a templated method misses the cache the first time; once
      served by one step of the `serve` loop, the same call is answered at submission from the cache with the
      same value, unless a cache timeout that is not positive deleted the
      slot; and after `clear_cache` it misses again. */
  lemma CachedCall(bus: Bus, s: Broker, table: FunctionTable, w: Watch, m: string,
                   args: seq<Value>, kwargs: map<string, Value>, id: string, again: string, entropy: nat)
    requires Covers(w) && m in w.names
    requires GetMethodOptions(bus, s, table, m) == Ok(w.opts[m]) && w.opts[m].ck.Some?
    requires RedisCacheKey(bus, m, w.opts[m], args, kwargs).Ok?
    requires !Exists(s, RedisCacheKey(bus, m, w.opts[m], args, kwargs).value.value)
    requires forall n :: n in w.names ==> CallList(s, CallsKey(bus, n)) == []
    ensures var run := RunMethod(bus, s, table, m, args, kwargs, id);
      var served := ServeStep(bus, run.state, w, entropy);
      var v := Invoke(w.opts[m].func, args, kwargs, entropy);
      var hit := RunMethod(bus, served.step.state, table, m, args, kwargs, again);
      var cleared := ClearMethodCache(bus, served.step.state, table, m, args, kwargs);
      && run.out == Ok(AsyncResult(id, None))
      && served.Served? && served.step.out == Ok(v)
      && (Keeps(bus.cacheExpire) ==> hit == Step(served.step.state, Ok(AsyncResult(again, Some(v)))))
      && (!Keeps(bus.cacheExpire) ==> hit.out == Ok(AsyncResult(again, None)))
      && RunMethod(bus, cleared.state, table, m, args, kwargs, again).out == Ok(AsyncResult(again, None))
  {
    var opts := w.opts[m];
    ServeCaches(bus, s, table, w, m, args, kwargs, id, entropy);
    var run := RunMethod(bus, s, table, m, args, kwargs, id);
    var t := ServeStep(bus, run.state, w, entropy).step.state;
    SubmitAgainst(bus, t, table, m, opts, args, kwargs, again);
    ClearRemoves(bus, t, table, m, opts, args, kwargs);
    SubmitAgainst(bus, ClearMethodCache(bus, t, table, m, args, kwargs).state, table, m, opts, args, kwargs, again);
  }

  // ---- Three calls served by one `serve_once` -------------------------------

  /** The playground's `hello(username='world')`, which returns
      `'Hello, %s' % username`. */
  function Hello(): Function {
    Function([Param("username", Some(StrValue("world")))],
      (values: seq<Value>, e: nat) =>
        if |values| == 1 then Ok(StrValue("Hello, " + Str(values[0])))
        else Err(Fault("TypeError", "hello() takes one argument")))
  }

  /** The three ways the package's remote-call test calls `hello`: with no
      argument, positionally, and by keyword. */
  lemma HelloOutcomes(e: nat)
    ensures Invoke(Hello(), [], map[], e) == StrValue("Hello, world")
    ensures Invoke(Hello(), [StrValue("Joe")], map[], e) == StrValue("Hello, Joe")
    ensures Invoke(Hello(), [], map["username" := StrValue("Joe")], e) == StrValue("Hello, Joe")
  {
    InvokeOutcome(Hello(), [], map[], e);
    InvokeOutcome(Hello(), [StrValue("Joe")], map[], e);
    InvokeOutcome(Hello(), [], map["username" := StrValue("Joe")], e);
  }

  /** Extra arguments are dropped before `hello` is called: a surplus
      positional argument, an unknown keyword, and a keyword repeating the
      positional argument. */
  lemma HelloDropsExtras(e: nat)
    ensures Invoke(Hello(), [StrValue("Joe"), StrValue("extra")], map[], e) == StrValue("Hello, Joe")
    ensures Invoke(Hello(), [], map["username" := StrValue("Joe"), "name" := StrValue("Bob")], e) == StrValue("Hello, Joe")
    ensures Invoke(Hello(), [StrValue("Joe")], map["username" := StrValue("Bob")], e) == StrValue("Hello, Joe")
  {
    InvokeOutcome(Hello(), [StrValue("Joe"), StrValue("extra")], map[], e);
    assert [StrValue("Joe"), StrValue("extra")][..1] == [StrValue("Joe")];
    InvokeOutcome(Hello(), [], map["username" := StrValue("Joe"), "name" := StrValue("Bob")], e);
    InvokeOutcome(Hello(), [StrValue("Joe")], map["username" := StrValue("Bob")], e);
  }

  /** Registering `hello` under its own name on a bus with no methods makes
      it the only method, with no cache template. */
  lemma RegisterHello(bus: Bus, s: Broker, table: FunctionTable)
    requires HashOf(s, MethodsKey(bus)) == []
    requires "playground.hello" in table && table["playground.hello"] == Hello()
    ensures var reg := RegisterMethod(bus, s, Callable("playground", "hello"), Some("hello"), None);
      && reg.out.Ok?
      && GetMethodOptions(bus, reg.state, table, "hello") == Ok(Options("playground.hello", None, Hello()))
      && AllMethods(bus, reg.state) == ["hello"]
      && reg.state.calls == s.calls && reg.state.results == s.results
  {
    assert FnPath(Callable("playground", "hello")) == "playground.hello";
    assert !("__main__." <= "playground.hello") by {
      assert "playground.hello"[0] != "__main__."[0];
    }
    assert HKeys(s, MethodsKey(bus)) == [];
  }

  /** Submitting to a method without a template pushes the call and changes
      nothing but its queue. */
  lemma SubmitUntemplated(bus: Bus, t: Broker, table: FunctionTable, m: string, opts: Options,
                          args: seq<Value>, kwargs: map<string, Value>, id: string)
    requires GetMethodOptions(bus, t, table, m) == Ok(opts) && opts.ck.None?
    ensures var r := RunMethod(bus, t, table, m, args, kwargs, id);
      && r.out == Ok(AsyncResult(id, None))
      && CallList(r.state, CallsKey(bus, m)) == [CallRecord(args, kwargs, id)] + CallList(t, CallsKey(bus, m))
      && r.state.hashes == t.hashes && r.state.results == t.results
  {
  }

  /** `serve_once` on a bus whose only method has no cache template runs
      its queued calls oldest first. */
  lemma ServeSingle(bus: Bus, t: Broker, table: FunctionTable, m: string, opts: Options, e: nat)
    requires opts.ck.None?
    requires AllMethods(bus, t) == [m] && Match(ServePattern(bus), m)
    requires GetMethodOptions(bus, t, table, m) == Ok(opts)
    ensures var d := ServeOnce(bus, t, table, None, e);
      var xs := CallList(t, CallsKey(bus, m));
      && d.error.None? && |d.runs| == |xs|
      && forall i :: 0 <= i < |d.runs| ==>
           && d.runs[i].methodName == m && d.runs[i].rec == xs[|xs| - 1 - i] && d.runs[i].entropy == e + i
           && d.runs[i].value == Invoke(opts.func, d.runs[i].rec.args, d.runs[i].rec.kwargs, e + i)
  {
    ServeOnceSingle(bus, t, table, m, opts, e);
    DrainUntemplated(bus, t, m, opts, e);
    DrainOrder(bus, t, m, ExecutorFor(bus, m, opts), e);
  }

  /** ... and publishes each outcome under its result id. */
  lemma ServeSinglePublishes(bus: Bus, t: Broker, table: FunctionTable, m: string, opts: Options, e: nat)
    requires Keeps(bus.resultExpire)
    requires AllMethods(bus, t) == [m] && Match(ServePattern(bus), m)
    requires GetMethodOptions(bus, t, table, m) == Ok(opts)
    ensures var d := ServeOnce(bus, t, table, None, e);
      forall id :: ResultList(d.state, ResultsKey(bus, id)) == ResultList(t, ResultsKey(bus, id)) + ResultsFor(d.runs, id)
  {
    ServeOnceSingle(bus, t, table, m, opts, e);
    DrainAllPublishes(bus, t, table, [m], e);
  }

  /** On a bus with one registered method that the serving pattern matches,
      `serve_once` is one drain of that method's queue. */
  lemma ServeOnceSingle(bus: Bus, t: Broker, table: FunctionTable, m: string, opts: Options, e: nat)
    requires AllMethods(bus, t) == [m] && Match(ServePattern(bus), m)
    requires GetMethodOptions(bus, t, table, m) == Ok(opts)
    ensures Confined(bus, ExecutorFor(bus, m, opts))
      && ServeOnce(bus, t, table, None, e) == DrainQueue(bus, t, m, ExecutorFor(bus, m, opts), e)
      && ServeOnce(bus, t, table, None, e) == DrainAll(bus, t, table, [m], e)
  {
    assert Filter([m], ServePattern(bus)) == [m];
    ExecutorConfined(bus, m, opts);
    var first := DrainQueue(bus, t, m, ExecutorFor(bus, m, opts), e);
    if first.error.None? {
      assert [m][1..] == [];
      assert DrainAll(bus, first.state, table, [], first.entropy) == Drain(first.state, first.entropy, [], None);
      assert first.runs + [] == first.runs;
    }
  }

  /** Three submissions to a method without a template queue the three
      calls, the first at the right end, and leave the hashes and result
      slots alone. */
  lemma SubmitThree(bus: Bus, t: Broker, table: FunctionTable, m: string, opts: Options,
                    rec1: CallRecord, rec2: CallRecord, rec3: CallRecord)
    requires GetMethodOptions(bus, t, table, m) == Ok(opts) && opts.ck.None?
    ensures var r1 := RunMethod(bus, t, table, m, rec1.args, rec1.kwargs, rec1.resultId);
      var r2 := RunMethod(bus, r1.state, table, m, rec2.args, rec2.kwargs, rec2.resultId);
      var r3 := RunMethod(bus, r2.state, table, m, rec3.args, rec3.kwargs, rec3.resultId);
      && r1.out == Ok(AsyncResult(rec1.resultId, None))
      && r2.out == Ok(AsyncResult(rec2.resultId, None))
      && r3.out == Ok(AsyncResult(rec3.resultId, None))
      && CallList(r3.state, CallsKey(bus, m)) == [rec3, rec2, rec1] + CallList(t, CallsKey(bus, m))
      && r3.state.hashes == t.hashes && r3.state.results == t.results
  {
    SubmitUntemplated(bus, t, table, m, opts, rec1.args, rec1.kwargs, rec1.resultId);
    var r1 := RunMethod(bus, t, table, m, rec1.args, rec1.kwargs, rec1.resultId);
    assert GetMethodOptions(bus, r1.state, table, m) == Ok(opts);
    SubmitUntemplated(bus, r1.state, table, m, opts, rec2.args, rec2.kwargs, rec2.resultId);
    var r2 := RunMethod(bus, r1.state, table, m, rec2.args, rec2.kwargs, rec2.resultId);
    assert GetMethodOptions(bus, r2.state, table, m) == Ok(opts);
    SubmitUntemplated(bus, r2.state, table, m, opts, rec3.args, rec3.kwargs, rec3.resultId);
  }

  /** `serve_once` over the three `hello` calls of the remote-call test runs
      them oldest first and publishes the three greetings. */
  lemma ServeHelloThree(bus: Bus, t: Broker, table: FunctionTable, rec1: CallRecord, rec2: CallRecord, rec3: CallRecord, e: nat)
    requires bus.prefix == "" && Keeps(bus.resultExpire)
    requires GetMethodOptions(bus, t, table, "hello") == Ok(Options("playground.hello", None, Hello()))
    requires AllMethods(bus, t) == ["hello"]
    requires CallList(t, CallsKey(bus, "hello")) == [rec3, rec2, rec1]
    requires rec1.args == [] && rec1.kwargs == map[]
    requires rec2.args == [StrValue("Joe")] && rec2.kwargs == map[]
    requires rec3.args == [] && rec3.kwargs == map["username" := StrValue("Joe")]
    ensures var d := ServeOnce(bus, t, table, None, e);
      && d.error.None?
      && d.runs == [Run("hello", rec1, e, StrValue("Hello, world")), Run("hello", rec2, e + 1, StrValue("Hello, Joe")),
                    Run("hello", rec3, e + 2, StrValue("Hello, Joe"))]
      && forall id :: ResultList(d.state, ResultsKey(bus, id)) == ResultList(t, ResultsKey(bus, id)) + ResultsFor(d.runs, id)
  {
    StarMatchesAll("hello");
    ServeSinglePublishes(bus, t, table, "hello", Options("playground.hello", None, Hello()), e);
    ServeSingle(bus, t, table, "hello", Options("playground.hello", None, Hello()), e);
    ServeThree(bus, t, table, "hello", Options("playground.hello", None, Hello()), rec1, rec2, rec3, e);
    HelloOutcomes(e);
    HelloOutcomes(e + 1);
    HelloOutcomes(e + 2);
  }

  /** Three queued calls of the only method are run in submission order with
      consecutive entropy draws. */
  lemma ServeThree(bus: Bus, t: Broker, table: FunctionTable, m: string, opts: Options,
                   rec1: CallRecord, rec2: CallRecord, rec3: CallRecord, e: nat)
    requires opts.ck.None?
    requires AllMethods(bus, t) == [m] && Match(ServePattern(bus), m)
    requires GetMethodOptions(bus, t, table, m) == Ok(opts)
    requires CallList(t, CallsKey(bus, m)) == [rec3, rec2, rec1]
    ensures ServeOnce(bus, t, table, None, e).runs
         == [Run(m, rec1, e, Invoke(opts.func, rec1.args, rec1.kwargs, e)),
             Run(m, rec2, e + 1, Invoke(opts.func, rec2.args, rec2.kwargs, e + 1)),
             Run(m, rec3, e + 2, Invoke(opts.func, rec3.args, rec3.kwargs, e + 2))]
  {
    ServeSingle(bus, t, table, m, opts, e);
    var d := ServeOnce(bus, t, table, None, e);
    assert |d.runs| == 3;
    assert d.runs[0].rec == rec1 && d.runs[1].rec == rec2 && d.runs[2].rec == rec3;
  }

  /** The package's remote-call test: `hello` is registered, called three
      ways, and served by one `serve_once`; each handle then reads its own
      greeting. */
  lemma RemoteCalls(s: Broker, table: FunctionTable, id1: string, id2: string, id3: string, e: nat)
    requires HashOf(s, MethodsKey(NewBus("test_bus"))) == []
    requires CallList(s, CallsKey(NewBus("test_bus"), "hello")) == []
    requires ResultList(s, ResultsKey(NewBus("test_bus"), id1)) == []
    requires ResultList(s, ResultsKey(NewBus("test_bus"), id2)) == []
    requires ResultList(s, ResultsKey(NewBus("test_bus"), id3)) == []
    requires id1 != id2 && id1 != id3 && id2 != id3
    requires "playground.hello" in table && table["playground.hello"] == Hello()
    ensures var bus := NewBus("test_bus");
      var reg := RegisterMethod(bus, s, Callable("playground", "hello"), Some("hello"), None);
      var r1 := RunMethod(bus, reg.state, table, "hello", [], map[], id1);
      var r2 := RunMethod(bus, r1.state, table, "hello", [StrValue("Joe")], map[], id2);
      var r3 := RunMethod(bus, r2.state, table, "hello", [], map["username" := StrValue("Joe")], id3);
      var d := ServeOnce(bus, r3.state, table, None, e);
      && r1.out == Ok(AsyncResult(id1, None))
      && r2.out == Ok(AsyncResult(id2, None))
      && r3.out == Ok(AsyncResult(id3, None))
      && d.error.None?
      && AsyncGet(bus, d.state, r1.out.value).1 == Returned(StrValue("Hello, world"))
      && AsyncGet(bus, d.state, r2.out.value).1 == Returned(StrValue("Hello, Joe"))
      && AsyncGet(bus, d.state, r3.out.value).1 == Returned(StrValue("Hello, Joe"))
  {
    var bus := NewBus("test_bus");
    var opts := Options("playground.hello", None, Hello());
    var reg := RegisterMethod(bus, s, Callable("playground", "hello"), Some("hello"), None);
    RegisterHello(bus, s, table);
    var rec1 := CallRecord([], map[], id1);
    var rec2 := CallRecord([StrValue("Joe")], map[], id2);
    var rec3 := CallRecord([], map["username" := StrValue("Joe")], id3);
    SubmitThree(bus, reg.state, table, "hello", opts, rec1, rec2, rec3);
    var r1 := RunMethod(bus, reg.state, table, "hello", [], map[], id1);
    var r2 := RunMethod(bus, r1.state, table, "hello", [StrValue("Joe")], map[], id2);
    var r3 := RunMethod(bus, r2.state, table, "hello", [], map["username" := StrValue("Joe")], id3);
    assert AllMethods(bus, r3.state) == AllMethods(bus, reg.state);
    ServeHelloThree(bus, r3.state, table, rec1, rec2, rec3, e);
    var d := ServeOnce(bus, r3.state, table, None, e);
    ReadsThree(bus, r3.state, d, id1, id2, id3);
  }

  /** What one run contributes to the result slot of `id`. */
  function Mine(run: Run, id: string): seq<Value> {
    if run.rec.resultId == id then [run.value] else []
  }

  /** Each of three distinct result ids reads the outcome of its own run. */
  lemma ReadsThree(bus: Bus, t: Broker, d: Drain, id1: string, id2: string, id3: string)
    requires |d.runs| == 3
    requires d.runs[0].rec.resultId == id1 && d.runs[1].rec.resultId == id2 && d.runs[2].rec.resultId == id3
    requires id1 != id2 && id1 != id3 && id2 != id3
    requires !d.runs[0].value.ExcValue? && !d.runs[1].value.ExcValue? && !d.runs[2].value.ExcValue?
    requires forall id :: ResultList(d.state, ResultsKey(bus, id)) == ResultList(t, ResultsKey(bus, id)) + ResultsFor(d.runs, id)
    requires ResultList(t, ResultsKey(bus, id1)) == [] && ResultList(t, ResultsKey(bus, id2)) == [] && ResultList(t, ResultsKey(bus, id3)) == []
    ensures AsyncGet(bus, d.state, AsyncResult(id1, None)).1 == Returned(d.runs[0].value)
    ensures AsyncGet(bus, d.state, AsyncResult(id2, None)).1 == Returned(d.runs[1].value)
    ensures AsyncGet(bus, d.state, AsyncResult(id3, None)).1 == Returned(d.runs[2].value)
  {
    var runs := d.runs;
    var tail1 := runs[1..];
    var tail2 := tail1[1..];
    assert tail2 == [runs[2]] && tail1 == [runs[1]] + tail2;
    assert tail2[1..] == [];
    forall id ensures ResultsFor(runs, id) == Mine(runs[0], id) + Mine(runs[1], id) + Mine(runs[2], id) {
      assert ResultsFor(tail2, id) == Mine(runs[2], id) + ResultsFor(tail2[1..], id);
      assert ResultsFor(tail1, id) == Mine(runs[1], id) + ResultsFor(tail2, id);
      assert ResultsFor(runs, id) == Mine(runs[0], id) + ResultsFor(tail1, id);
    }
  }
}

=== FILE: serving.dfy ===
/** `serve_once`, which drains every matching queue, and the parts of `serve`
    that are not the blocking loop: its start-up check and one loop step. */
module Serving {
  import opened Base
  import opened Strings
  import opened Glob
  import opened Data
  import opened Broker
  import opened Keyspace
  import opened Registry
  import opened Resolver
  import opened Worker

  /** One executed call: the method, the record, the entropy it drew and its outcome. */
  datatype Run = Run(methodName: string, rec: CallRecord, entropy: nat, value: Value)

  /** The broker after a drain, the next entropy draw, the calls executed in
      order, and the error that stopped the drain, if one did. */
  datatype Drain = Drain(state: Broker, entropy: nat, runs: seq<Run>, error: Option<BusError>)

  /** The outcomes published under result id `id`, in order. */
  function ResultsFor(runs: seq<Run>, id: string): seq<Value>
  {
    if |runs| == 0 then []
    else (if runs[0].rec.resultId == id then [runs[0].value] else []) + ResultsFor(runs[1..], id)
  }

  lemma {:induction false} ResultsForAppend(a: seq<Run>, b: seq<Run>, id: string)
    ensures ResultsFor(a + b, id) == ResultsFor(a, id) + ResultsFor(b, id)
  {
    if |a| == 0 {
      assert a + b == b;
    } else {
      var head := if a[0].rec.resultId == id then [a[0].value] else [];
      assert (a + b)[1..] == a[1..] + b;
      assert ResultsFor(a + b, id) == head + ResultsFor(a[1..] + b, id);
      ResultsForAppend(a[1..], b, id);
      ConcatAssoc(head, ResultsFor(a[1..], id), ResultsFor(b, id));
    }
  }

  lemma TakeTake<T>(xs: seq<T>, a: int, k: int)
    requires 0 <= k <= a <= |xs|
    ensures xs[..a][..k] == xs[..k]
  {
  }

  lemma ConcatAssoc<T>(a: seq<T>, b: seq<T>, c: seq<T>)
    ensures (a + b) + c == a + (b + c)
  {
  }

  /** Executing one popped record: `_exec_function` with the method's name
      and options fixed. The drain loop is stated over any executor, and the
      lemmas below say which properties of the executor each result needs. */
  type Executor = (Broker, CallRecord, nat) -> Step<Value>

  function ExecutorFor(bus: Bus, methodName: string, opts: Options): Executor {
    (t: Broker, rec: CallRecord, e: nat) => ExecFunction(bus, t, methodName, opts, rec, e)
  }

  /** The executor leaves every call queue and the methods hash alone, and
      changes nothing when it fails. */
  ghost predicate Confined(bus: Bus, exec: Executor) {
    && (forall t, rec, e, m :: CallList(exec(t, rec, e).state, CallsKey(bus, m)) == CallList(t, CallsKey(bus, m)))
    && (forall t, rec, e :: HashOf(exec(t, rec, e).state, MethodsKey(bus)) == HashOf(t, MethodsKey(bus)))
    && (forall t, rec, e :: exec(t, rec, e).out.Err? ==> exec(t, rec, e).state == t)
  }

  lemma ExecutorConfined(bus: Bus, methodName: string, opts: Options)
    ensures Confined(bus, ExecutorFor(bus, methodName, opts))
  {
    forall t, rec, e ensures var r := ExecFunction(bus, t, methodName, opts, rec, e);
      && (forall m :: CallList(r.state, CallsKey(bus, m)) == CallList(t, CallsKey(bus, m)))
      && HashOf(r.state, MethodsKey(bus)) == HashOf(t, MethodsKey(bus))
      && (r.out.Err? ==> r.state == t)
    {
      ExecKeepsQueues(bus, t, methodName, opts, rec, e);
    }
  }

  /** The inner `while True` of `serve_once` for one method: pops records
      from the right until the queue is empty, executing each. An error from
      executing a record stops the drain after that record was popped. */
  function DrainQueue(bus: Bus, s: Broker, methodName: string, exec: Executor, entropy: nat): (d: Drain)
    requires Confined(bus, exec)
    decreases |CallList(s, CallsKey(bus, methodName))|
    ensures d.entropy == entropy + |d.runs|
    ensures forall i :: 0 <= i < |d.runs| ==> d.runs[i].entropy == entropy + i && d.runs[i].methodName == methodName
  {
    var p := RPop(s, CallsKey(bus, methodName));
    match p.1
    case None => Drain(p.0, entropy, [], None)
    case Some(rec) =>
      var step := exec(p.0, rec, entropy);
      match step.out
      case Err(e) => Drain(step.state, entropy, [], Some(e))
      case Ok(v) =>
        var rest := DrainQueue(bus, step.state, methodName, exec, entropy + 1);
        Drain(rest.state, rest.entropy, [Run(methodName, rec, entropy, v)] + rest.runs, rest.error)
  }

  /** `runs` took its records from the right end of `xs`: the oldest first,
      since `LPUSH` puts the newest call at the left. */
  ghost predicate FromRight(runs: seq<Run>, xs: seq<CallRecord>) {
    |runs| <= |xs| && forall i :: 0 <= i < |runs| ==> runs[i].rec == xs[|xs| - 1 - i]
  }

  /** Records are executed in FIFO order. A drain that ends without error
      has executed the whole queue and left it empty; one that stops on an
      error has executed a prefix of it, and the record that failed has been
      popped and is gone. */
  lemma {:induction false} DrainOrder(bus: Bus, s: Broker, methodName: string, exec: Executor, entropy: nat)
    requires Confined(bus, exec)
    decreases |CallList(s, CallsKey(bus, methodName))|
    ensures var d := DrainQueue(bus, s, methodName, exec, entropy);
      var xs := CallList(s, CallsKey(bus, methodName));
      && FromRight(d.runs, xs)
      && (d.error.None? ==> |d.runs| == |xs| && CallList(d.state, CallsKey(bus, methodName)) == [])
      && (d.error.Some? ==> |d.runs| < |xs| && CallList(d.state, CallsKey(bus, methodName)) == xs[..|xs| - |d.runs| - 1])
  {
    var key := CallsKey(bus, methodName);
    var xs := CallList(s, key);
    var p := RPop(s, key);
    var d := DrainQueue(bus, s, methodName, exec, entropy);
    if p.1.Some? {
      var rec := p.1.value;
      var ys := xs[..|xs| - 1];
      assert rec == xs[|xs| - 1];
      var step := exec(p.0, rec, entropy);
      assert CallList(step.state, key) == ys;
      if step.out.Ok? {
        DrainOrder(bus, step.state, methodName, exec, entropy + 1);
        var rest := DrainQueue(bus, step.state, methodName, exec, entropy + 1);
        var first := Run(methodName, rec, entropy, step.out.value);
        assert d == Drain(rest.state, rest.entropy, [first] + rest.runs, rest.error);
        FromRightCons(xs, first, rest.runs);
        if rest.error.Some? {
          TakeTake(xs, |xs| - 1, |xs| - |rest.runs| - 2);
        }
      } else {
        assert d == Drain(step.state, entropy, [], Some(step.out.error));
      }
    }
  }

  lemma FromRightCons(xs: seq<CallRecord>, first: Run, rest: seq<Run>)
    requires xs != [] && first.rec == xs[|xs| - 1]
    requires FromRight(rest, xs[..|xs| - 1])
    ensures FromRight([first] + rest, xs)
  {
    var runs := [first] + rest;
    forall i | 0 <= i < |runs| ensures runs[i].rec == xs[|xs| - 1 - i] {
      if i > 0 { assert runs[i] == rest[i - 1]; }
    }
  }

  /** Popping one method's queue leaves the other queues and the methods
      hash alone. */
  lemma PopFrame(bus: Bus, s: Broker, methodName: string)
    ensures var t := RPop(s, CallsKey(bus, methodName)).0;
      && (forall m :: m != methodName ==> CallList(t, CallsKey(bus, m)) == CallList(s, CallsKey(bus, m)))
      && HashOf(t, MethodsKey(bus)) == HashOf(s, MethodsKey(bus))
  {
    forall m | m != methodName ensures CallsKey(bus, m) != CallsKey(bus, methodName) {
      if CallsKey(bus, m) == CallsKey(bus, methodName) { CallsKeyInjective(bus, m, methodName); }
    }
  }

  /** A drain touches no call queue but its own, and not the methods hash. */
  lemma {:induction false} DrainFrame(bus: Bus, s: Broker, methodName: string, exec: Executor, entropy: nat)
    requires Confined(bus, exec)
    decreases |CallList(s, CallsKey(bus, methodName))|
    ensures var d := DrainQueue(bus, s, methodName, exec, entropy);
      && (forall m :: m != methodName ==> CallList(d.state, CallsKey(bus, m)) == CallList(s, CallsKey(bus, m)))
      && HashOf(d.state, MethodsKey(bus)) == HashOf(s, MethodsKey(bus))
  {
    var p := RPop(s, CallsKey(bus, methodName));
    var d := DrainQueue(bus, s, methodName, exec, entropy);
    PopFrame(bus, s, methodName);
    if p.1.Some? {
      var step := exec(p.0, p.1.value, entropy);
      if step.out.Ok? {
        DrainFrame(bus, step.state, methodName, exec, entropy + 1);
        assert d.state == DrainQueue(bus, step.state, methodName, exec, entropy + 1).state;
      } else {
        assert d.state == step.state;
      }
    } else {
      assert d.state == p.0;
    }
  }

  /** The executor keeps the broker well formed. */
  ghost predicate KeepsValid(exec: Executor) {
    forall t, rec, e :: Valid(t) ==> Valid(exec(t, rec, e).state)
  }

  lemma ExecutorKeepsValid(bus: Bus, methodName: string, opts: Options)
    ensures KeepsValid(ExecutorFor(bus, methodName, opts))
  {
  }

  lemma {:induction false} DrainValid(bus: Bus, s: Broker, methodName: string, exec: Executor, entropy: nat)
    requires Confined(bus, exec) && KeepsValid(exec) && Valid(s)
    decreases |CallList(s, CallsKey(bus, methodName))|
    ensures Valid(DrainQueue(bus, s, methodName, exec, entropy).state)
  {
    var p := RPop(s, CallsKey(bus, methodName));
    if p.1.Some? {
      var step := exec(p.0, p.1.value, entropy);
      if step.out.Ok? {
        DrainValid(bus, step.state, methodName, exec, entropy + 1);
      }
    }
  }

  /** The executor appends its outcome to the call's result slot, and to no
      other. */
  ghost predicate Publishes(bus: Bus, exec: Executor) {
    forall t, rec, e, id :: exec(t, rec, e).out.Ok? ==>
      ResultList(exec(t, rec, e).state, ResultsKey(bus, id))
      == ResultList(t, ResultsKey(bus, id)) + (if id == rec.resultId then [exec(t, rec, e).out.value] else [])
  }

  lemma ExecutorPublishes(bus: Bus, methodName: string, opts: Options)
    requires Keeps(bus.resultExpire)
    ensures Publishes(bus, ExecutorFor(bus, methodName, opts))
  {
    forall t, rec, e ensures var r := ExecFunction(bus, t, methodName, opts, rec, e);
      r.out.Ok? ==> forall id :: ResultList(r.state, ResultsKey(bus, id))
                                 == ResultList(t, ResultsKey(bus, id)) + (if id == rec.resultId then [r.out.value] else [])
    {
      ExecPublishes(bus, t, methodName, opts, rec, e);
    }
  }

  /** Every outcome a drain computes is appended to its call's result slot. */
  lemma {:induction false} DrainPublishes(bus: Bus, s: Broker, methodName: string, exec: Executor, entropy: nat)
    requires Confined(bus, exec) && Publishes(bus, exec)
    decreases |CallList(s, CallsKey(bus, methodName))|
    ensures var d := DrainQueue(bus, s, methodName, exec, entropy);
      forall id :: ResultList(d.state, ResultsKey(bus, id)) == ResultList(s, ResultsKey(bus, id)) + ResultsFor(d.runs, id)
  {
    var p := RPop(s, CallsKey(bus, methodName));
    var d := DrainQueue(bus, s, methodName, exec, entropy);
    assert p.0.results == s.results;
    if p.1.None? {
      assert d == Drain(p.0, entropy, [], None);
    } else {
      var rec := p.1.value;
      var step := exec(p.0, rec, entropy);
      if step.out.Err? {
        assert d == Drain(p.0, entropy, [], Some(step.out.error));
      } else {
        var first := Run(methodName, rec, entropy, step.out.value);
        DrainPublishes(bus, step.state, methodName, exec, entropy + 1);
        var rest := DrainQueue(bus, step.state, methodName, exec, entropy + 1);
        assert d == Drain(rest.state, rest.entropy, [first] + rest.runs, rest.error);
        forall id
          ensures ResultList(d.state, ResultsKey(bus, id)) == ResultList(s, ResultsKey(bus, id)) + ResultsFor(d.runs, id)
        {
          var mine := if id == rec.resultId then [step.out.value] else [];
          assert ResultList(step.state, ResultsKey(bus, id)) == ResultList(s, ResultsKey(bus, id)) + mine;
          ResultsForCons(first, rest.runs, id);
          ConcatAssoc(ResultList(s, ResultsKey(bus, id)), mine, ResultsFor(rest.runs, id));
        }
      }
    }
  }

  lemma ResultsForCons(first: Run, rest: seq<Run>, id: string)
    ensures ResultsFor([first] + rest, id) == (if first.rec.resultId == id then [first.value] else []) + ResultsFor(rest, id)
  {
    assert ([first] + rest)[1..] == rest;
  }

  /** The executor never fails and its outcome depends on the record and
      the entropy draw alone. */
  ghost predicate Computes(exec: Executor, f: (CallRecord, nat) -> Value) {
    forall t, rec, e :: exec(t, rec, e).out == Ok(f(rec, e))
  }

  /** For a method without a template, executing is calling the function. */
  lemma ExecutorUntemplated(bus: Bus, methodName: string, opts: Options)
    requires opts.ck.None?
    ensures Computes(ExecutorFor(bus, methodName, opts), (rec: CallRecord, e: nat) => Invoke(opts.func, rec.args, rec.kwargs, e))
    ensures Keeps(bus.resultExpire) ==>
      forall t, rec, e :: ExecFunction(bus, t, methodName, opts, rec, e).state.strings == t.strings
  {
    forall t, rec, e ensures ExecFunction(bus, t, methodName, opts, rec, e).out == Ok(Invoke(opts.func, rec.args, rec.kwargs, e)) {
      ExecOutcome(bus, t, methodName, opts, rec, e);
    }
    forall t, rec, e | Keeps(bus.resultExpire)
      ensures ExecFunction(bus, t, methodName, opts, rec, e).state.strings == t.strings
    {
      ExecLeavesCache(bus, t, methodName, opts, rec, e);
    }
  }

  /** With such an executor a drain never stops early and every outcome is
      the function's own result for that record and draw. */
  lemma {:induction false} DrainComputes(bus: Bus, s: Broker, methodName: string, exec: Executor,
                                         f: (CallRecord, nat) -> Value, entropy: nat)
    requires Confined(bus, exec) && Computes(exec, f)
    decreases |CallList(s, CallsKey(bus, methodName))|
    ensures var d := DrainQueue(bus, s, methodName, exec, entropy);
      && d.error.None?
      && forall i :: 0 <= i < |d.runs| ==> d.runs[i].value == f(d.runs[i].rec, d.runs[i].entropy)
  {
    var p := RPop(s, CallsKey(bus, methodName));
    if p.1.Some? {
      var rec := p.1.value;
      var step := exec(p.0, rec, entropy);
      assert step.out == Ok(f(rec, entropy));
      DrainComputes(bus, step.state, methodName, exec, f, entropy + 1);
      var d := DrainQueue(bus, s, methodName, exec, entropy);
      var rest := DrainQueue(bus, step.state, methodName, exec, entropy + 1);
      assert d.runs == [Run(methodName, rec, entropy, f(rec, entropy))] + rest.runs;
      forall i | 0 <= i < |d.runs| ensures d.runs[i].value == f(d.runs[i].rec, d.runs[i].entropy) {
        if i > 0 { assert d.runs[i] == rest.runs[i - 1]; }
      }
    }
  }

  /** Draining the queue of a method without a template runs every queued
      call and records, for each, its function's outcome on the call's
      arguments and the run's entropy draw. */
  lemma DrainUntemplated(bus: Bus, s: Broker, methodName: string, opts: Options, entropy: nat)
    requires opts.ck.None?
    ensures Confined(bus, ExecutorFor(bus, methodName, opts))
    ensures var d := DrainQueue(bus, s, methodName, ExecutorFor(bus, methodName, opts), entropy);
      && d.error.None?
      && forall i :: 0 <= i < |d.runs| ==>
           d.runs[i].value == Invoke(opts.func, d.runs[i].rec.args, d.runs[i].rec.kwargs, entropy + i)
  {
    var exec := ExecutorFor(bus, methodName, opts);
    ExecutorConfined(bus, methodName, opts);
    ExecutorUntemplated(bus, methodName, opts);
    var f := (rec: CallRecord, e: nat) => Invoke(opts.func, rec.args, rec.kwargs, e);
    DrainComputes(bus, s, methodName, exec, f, entropy);
    var d := DrainQueue(bus, s, methodName, exec, entropy);
    forall i | 0 <= i < |d.runs|
      ensures d.runs[i].value == Invoke(opts.func, d.runs[i].rec.args, d.runs[i].rec.kwargs, entropy + i)
    {
      assert d.runs[i].value == f(d.runs[i].rec, d.runs[i].entropy);
    }
  }

  // ---- serve_once -------------------------------------------------------

  /** The `for` loop of `serve_once`: for each name in turn, reads its options
      (an unknown method or a function that cannot be imported raises and ends
      the loop), then drains its queue. */
  function DrainAll(bus: Bus, s: Broker, table: FunctionTable, names: seq<string>, entropy: nat): (d: Drain)
    decreases |names|
    ensures d.entropy == entropy + |d.runs|
    ensures forall i :: 0 <= i < |d.runs| ==> d.runs[i].methodName in names
  {
    if |names| == 0 then Drain(s, entropy, [], None)
    else
      match GetMethodOptions(bus, s, table, names[0])
      case Err(e) => Drain(s, entropy, [], Some(e))
      case Ok(opts) =>
        ExecutorConfined(bus, names[0], opts);
        var first := DrainQueue(bus, s, names[0], ExecutorFor(bus, names[0], opts), entropy);
        if first.error.Some? then first
        else
          var rest := DrainAll(bus, first.state, table, names[1..], first.entropy);
          Drain(rest.state, rest.entropy, first.runs + rest.runs, rest.error)
  }

  /** `serve_once(pattern)`: drains the queue of every registered method whose
      name matches the pattern, the bus's serve pattern by default, in the
      order `HKEYS` lists them. */
  function ServeOnce(bus: Bus, s: Broker, table: FunctionTable, pattern: Option<string>, entropy: nat): (d: Drain)
    ensures forall i :: 0 <= i < |d.runs| ==>
      GetMethod(bus, s, d.runs[i].methodName).Some? && Match(pattern.GetOr(ServePattern(bus)), d.runs[i].methodName)
  {
    DrainAll(bus, s, table, Filter(AllMethods(bus, s), pattern.GetOr(ServePattern(bus))), entropy)
  }

  /** The call queues of names outside the list, and the methods hash, are
      left alone. */
  lemma {:induction false} DrainAllFrame(bus: Bus, s: Broker, table: FunctionTable, names: seq<string>, entropy: nat)
    decreases |names|
    ensures var d := DrainAll(bus, s, table, names, entropy);
      && (forall m :: m !in names ==> CallList(d.state, CallsKey(bus, m)) == CallList(s, CallsKey(bus, m)))
      && HashOf(d.state, MethodsKey(bus)) == HashOf(s, MethodsKey(bus))
  {
    if |names| > 0 && GetMethodOptions(bus, s, table, names[0]).Ok? {
      var opts := GetMethodOptions(bus, s, table, names[0]).value;
      var exec := ExecutorFor(bus, names[0], opts);
      ExecutorConfined(bus, names[0], opts);
      var first := DrainQueue(bus, s, names[0], exec, entropy);
      DrainFrame(bus, s, names[0], exec, entropy);
      if first.error.None? {
        DrainAllFrame(bus, first.state, table, names[1..], first.entropy);
        assert forall m :: m !in names ==> m != names[0] && m !in names[1..];
      }
    }
  }

  /** A loop that ends without error has found options for every name and
      left every listed queue empty. */
  lemma {:induction false} DrainAllEmpties(bus: Bus, s: Broker, table: FunctionTable, names: seq<string>, entropy: nat)
    decreases |names|
    ensures var d := DrainAll(bus, s, table, names, entropy);
      d.error.None? ==>
        forall n :: n in names ==> GetMethodOptions(bus, s, table, n).Ok? && CallList(d.state, CallsKey(bus, n)) == []
  {
    var d := DrainAll(bus, s, table, names, entropy);
    if |names| > 0 && GetMethodOptions(bus, s, table, names[0]).Ok? {
      var opts := GetMethodOptions(bus, s, table, names[0]).value;
      var exec := ExecutorFor(bus, names[0], opts);
      ExecutorConfined(bus, names[0], opts);
      var first := DrainQueue(bus, s, names[0], exec, entropy);
      if first.error.None? {
        DrainOrder(bus, s, names[0], exec, entropy);
        DrainFrame(bus, s, names[0], exec, entropy);
        DrainAllEmpties(bus, first.state, table, names[1..], first.entropy);
        DrainAllFrame(bus, first.state, table, names[1..], first.entropy);
        var rest := DrainAll(bus, first.state, table, names[1..], first.entropy);
        assert d.state == rest.state && d.error == rest.error;
        forall n | n in names && d.error.None?
          ensures GetMethodOptions(bus, s, table, n).Ok? && CallList(d.state, CallsKey(bus, n)) == []
        {
          assert GetMethodOptions(bus, first.state, table, n) == GetMethodOptions(bus, s, table, n);
          if n !in names[1..] {
            assert n == names[0];
          }
        }
      }
    }
  }

  /** Every outcome the loop computes is appended to its call's result slot. */
  lemma {:induction false} DrainAllPublishes(bus: Bus, s: Broker, table: FunctionTable, names: seq<string>, entropy: nat)
    requires Keeps(bus.resultExpire)
    decreases |names|
    ensures var d := DrainAll(bus, s, table, names, entropy);
      forall id :: ResultList(d.state, ResultsKey(bus, id)) == ResultList(s, ResultsKey(bus, id)) + ResultsFor(d.runs, id)
  {
    var d := DrainAll(bus, s, table, names, entropy);
    if |names| > 0 && GetMethodOptions(bus, s, table, names[0]).Ok? {
      var opts := GetMethodOptions(bus, s, table, names[0]).value;
      var exec := ExecutorFor(bus, names[0], opts);
      ExecutorConfined(bus, names[0], opts);
      ExecutorPublishes(bus, names[0], opts);
      var first := DrainQueue(bus, s, names[0], exec, entropy);
      DrainPublishes(bus, s, names[0], exec, entropy);
      if first.error.None? {
        DrainAllPublishes(bus, first.state, table, names[1..], first.entropy);
        var rest := DrainAll(bus, first.state, table, names[1..], first.entropy);
        assert d == Drain(rest.state, rest.entropy, first.runs + rest.runs, rest.error);
        forall id
          ensures ResultList(d.state, ResultsKey(bus, id)) == ResultList(s, ResultsKey(bus, id)) + ResultsFor(d.runs, id)
        {
          ResultsForAppend(first.runs, rest.runs, id);
          ConcatAssoc(ResultList(s, ResultsKey(bus, id)), ResultsFor(first.runs, id), ResultsFor(rest.runs, id));
        }
      }
    }
  }

  /** The position of a listed name: its first occurrence. */
  function IndexOf(names: seq<string>, n: string): (i: nat)
    requires n in names
    ensures i < |names| && names[i] == n
    ensures forall j :: 0 <= j < i ==> names[j] != n
  {
    if names[0] == n then 0 else IndexOf(names[1..], n) + 1
  }

  /** Every run belongs to a listed method, and runs of a method listed
      earlier come first. */
  ghost predicate InListOrder(runs: seq<Run>, names: seq<string>) {
    && (forall i :: 0 <= i < |runs| ==> runs[i].methodName in names)
    && (forall i, j :: 0 <= i < j < |runs| ==>
          IndexOf(names, runs[i].methodName) <= IndexOf(names, runs[j].methodName))
  }

  /** Runs of the first listed method followed by runs in the order of the
      remaining names are in the order of the whole list. */
  lemma InListOrderCons(first: seq<Run>, rest: seq<Run>, names: seq<string>)
    requires Distinct(names) && |names| > 0
    requires forall i :: 0 <= i < |first| ==> first[i].methodName == names[0]
    requires InListOrder(rest, names[1..])
    ensures InListOrder(first + rest, names)
  {
    var runs := first + rest;
    var tail := names[1..];
    forall m | m in tail ensures IndexOf(names, m) == IndexOf(tail, m) + 1 {
      var k := IndexOf(tail, m);
      assert names[k + 1] == m && names[0] != m;
    }
    forall i | 0 <= i < |runs| ensures runs[i].methodName in names {
      if i >= |first| { assert runs[i] == rest[i - |first|]; }
    }
    forall i, j | 0 <= i < j < |runs|
      ensures IndexOf(names, runs[i].methodName) <= IndexOf(names, runs[j].methodName)
    {
      if i >= |first| {
        assert runs[i] == rest[i - |first|] && runs[j] == rest[j - |first|];
      } else if j >= |first| {
        assert runs[j] == rest[j - |first|];
      }
    }
  }

  /** Methods are served in list order: every call of a method runs before
      any call of a method listed after it. */
  lemma {:induction false} DrainAllOrder(bus: Bus, s: Broker, table: FunctionTable, names: seq<string>, entropy: nat)
    requires Distinct(names)
    decreases |names|
    ensures InListOrder(DrainAll(bus, s, table, names, entropy).runs, names)
  {
    if |names| > 0 && GetMethodOptions(bus, s, table, names[0]).Ok? {
      var opts := GetMethodOptions(bus, s, table, names[0]).value;
      var exec := ExecutorFor(bus, names[0], opts);
      ExecutorConfined(bus, names[0], opts);
      var first := DrainQueue(bus, s, names[0], exec, entropy);
      if first.error.None? {
        assert Distinct(names[1..]);
        DrainAllOrder(bus, first.state, table, names[1..], first.entropy);
        var rest := DrainAll(bus, first.state, table, names[1..], first.entropy);
        InListOrderCons(first.runs, rest.runs, names);
      }
    }
  }

  /** `serve_once` serves the matching methods in the order `HKEYS` lists
      them. */
  lemma ServeOnceOrder(bus: Bus, s: Broker, table: FunctionTable, pattern: Option<string>, entropy: nat)
    requires Valid(s)
    ensures InListOrder(ServeOnce(bus, s, table, pattern, entropy).runs,
                        Filter(AllMethods(bus, s), pattern.GetOr(ServePattern(bus))))
  {
    AllMethodsDistinct(bus, s);
    DrainAllOrder(bus, s, table, Filter(AllMethods(bus, s), pattern.GetOr(ServePattern(bus))), entropy);
  }

  /** A loop that raised stopped at `names[k]`: every call it ran belongs to
      that method or an earlier one, and the queues of every other method are
      as they were. */
  ghost predicate StoppedAt(bus: Bus, s: Broker, names: seq<string>, d: Drain, k: nat) {
    && k < |names|
    && (forall i :: 0 <= i < |d.runs| ==> d.runs[i].methodName in names[..k + 1])
    && (forall m :: m !in names[..k + 1] ==> CallList(d.state, CallsKey(bus, m)) == CallList(s, CallsKey(bus, m)))
  }

  /** A loop that raises stops at some listed method, leaving the queues of
      the methods after it untouched. */
  lemma {:induction false} DrainAllStops(bus: Bus, s: Broker, table: FunctionTable, names: seq<string>, entropy: nat)
    decreases |names|
    ensures var d := DrainAll(bus, s, table, names, entropy);
      d.error.Some? ==> exists k :: StoppedAt(bus, s, names, d, k)
  {
    var d := DrainAll(bus, s, table, names, entropy);
    if |names| > 0 && d.error.Some? {
      if GetMethodOptions(bus, s, table, names[0]).Ok? {
        var opts := GetMethodOptions(bus, s, table, names[0]).value;
        var exec := ExecutorFor(bus, names[0], opts);
        ExecutorConfined(bus, names[0], opts);
        var first := DrainQueue(bus, s, names[0], exec, entropy);
        if first.error.None? {
          DrainAllStops(bus, first.state, table, names[1..], first.entropy);
          var rest := DrainAll(bus, first.state, table, names[1..], first.entropy);
          var k :| StoppedAt(bus, first.state, names[1..], rest, k);
          DrainFrame(bus, s, names[0], exec, entropy);
          StoppedAfterFirst(bus, s, names, first, rest, k);
          assert d == Drain(rest.state, rest.entropy, first.runs + rest.runs, rest.error);
        } else {
          StoppedAtFirst(bus, s, names, exec, entropy);
        }
      } else {
        assert names[..1] == [names[0]];
        assert StoppedAt(bus, s, names, d, 0);
      }
    }
  }

  /** A drain of the first method that raises stops the loop there. */
  lemma StoppedAtFirst(bus: Bus, s: Broker, names: seq<string>, exec: Executor, entropy: nat)
    requires |names| > 0 && Confined(bus, exec)
    ensures StoppedAt(bus, s, names, DrainQueue(bus, s, names[0], exec, entropy), 0)
  {
    assert names[..1] == [names[0]];
    DrainFrame(bus, s, names[0], exec, entropy);
  }

  /** A stop at `names[1..][k]` after a clean drain of the first method is a
      stop at `names[k + 1]`. */
  lemma StoppedAfterFirst(bus: Bus, s: Broker, names: seq<string>, first: Drain, rest: Drain, k: nat)
    requires |names| > 0
    requires forall i :: 0 <= i < |first.runs| ==> first.runs[i].methodName == names[0]
    requires forall m :: m != names[0] ==> CallList(first.state, CallsKey(bus, m)) == CallList(s, CallsKey(bus, m))
    requires StoppedAt(bus, first.state, names[1..], rest, k)
    ensures StoppedAt(bus, s, names, Drain(rest.state, rest.entropy, first.runs + rest.runs, rest.error), k + 1)
  {
    var runs := first.runs + rest.runs;
    assert names[..k + 2] == [names[0]] + names[1..][..k + 1];
    forall i | 0 <= i < |runs| ensures runs[i].methodName in names[..k + 2] {
      if i >= |first.runs| { assert runs[i] == rest.runs[i - |first.runs|]; }
    }
  }

  /** With the default pattern, `serve_once` serves exactly the registered
      methods whose names start with the bus prefix: their queues end empty,
      every other queue is left alone, and every result is published. */
  lemma ServeOnceDefault(bus: Bus, s: Broker, table: FunctionTable, entropy: nat)
    requires Literal(bus.prefix)
    ensures var d := ServeOnce(bus, s, table, None, entropy);
      && (forall m :: GetMethod(bus, s, m).Some? && bus.prefix <= m && d.error.None? ==> CallList(d.state, CallsKey(bus, m)) == [])
      && (forall m :: !(GetMethod(bus, s, m).Some? && bus.prefix <= m) ==> CallList(d.state, CallsKey(bus, m)) == CallList(s, CallsKey(bus, m)))
      && (Keeps(bus.resultExpire) ==>
            forall id :: ResultList(d.state, ResultsKey(bus, id)) == ResultList(s, ResultsKey(bus, id)) + ResultsFor(d.runs, id))
  {
    var names := Filter(AllMethods(bus, s), ServePattern(bus));
    forall m ensures m in names <==> GetMethod(bus, s, m).Some? && bus.prefix <= m {
      PrefixStar(bus.prefix, m);
    }
    DrainAllEmpties(bus, s, table, names, entropy);
    DrainAllFrame(bus, s, table, names, entropy);
    if Keeps(bus.resultExpire) {
      DrainAllPublishes(bus, s, table, names, entropy);
    }
  }

  // ---- serve ---------------------------------------------------------------

  /** The options `serve` reads, by name, before its loop starts; the first
      name whose options cannot be read raises. */
  function WatchOptions(bus: Bus, s: Broker, table: FunctionTable, names: seq<string>): (r: Result<map<string, Options>, BusError>)
    ensures r.Ok? <==> forall n :: n in names ==> GetMethodOptions(bus, s, table, n).Ok?
    ensures r.Ok? ==> forall n :: n in r.value <==> n in names
    ensures r.Ok? ==> forall n :: n in names ==> r.value[n] == GetMethodOptions(bus, s, table, n).value
    ensures r.Err? ==> exists i :: 0 <= i < |names| && GetMethodOptions(bus, s, table, names[i]) == Err(r.error)
                                  && forall j :: 0 <= j < i ==> GetMethodOptions(bus, s, table, names[j]).Ok?
  {
    if |names| == 0 then Ok(map[])
    else
      match GetMethodOptions(bus, s, table, names[0])
      case Err(e) => Err(e)
      case Ok(o) =>
        match WatchOptions(bus, s, table, names[1..])
        case Err(e) =>
          ghost var i :| 0 <= i < |names[1..]| && GetMethodOptions(bus, s, table, names[1..][i]) == Err(e)
            && forall j :: 0 <= j < i ==> GetMethodOptions(bus, s, table, names[1..][j]).Ok?;
          assert GetMethodOptions(bus, s, table, names[i + 1]) == Err(e);
          Err(e)
        case Ok(m) =>
          assert forall n :: n in names ==> n == names[0] || n in names[1..];
          Ok(m[names[0] := o])
  }

  /** What `serve` has set up when its loop starts: the names it watches, in
      `HKEYS` order, and the options read for each. */
  datatype Watch = Watch(names: seq<string>, opts: map<string, Options>)

  ghost predicate Covers(w: Watch) {
    forall n :: n in w.names ==> n in w.opts
  }

  /** The set-up half of `serve`: `RuntimeError('Nothing to serve')` when no
      registered method matches, otherwise the options of every match. */
  function ServeSetup(bus: Bus, s: Broker, table: FunctionTable, pattern: Option<string>): (r: Result<Watch, BusError>)
    ensures var names := Filter(AllMethods(bus, s), pattern.GetOr(ServePattern(bus)));
      && (|names| == 0 <==> r == Err(NothingToServe))
      && (|names| > 0 ==> (r.Ok? <==> forall n :: n in names ==> GetMethodOptions(bus, s, table, n).Ok?))
      && (r.Ok? ==> && r.value.names == names && Covers(r.value)
                    && forall n :: n in names ==> r.value.opts[n] == GetMethodOptions(bus, s, table, n).value)
  {
    var names := Filter(AllMethods(bus, s), pattern.GetOr(ServePattern(bus)));
    if |names| == 0 then Err(NothingToServe)
    else
      match WatchOptions(bus, s, table, names)
      case Err(e) => Err(e)
      case Ok(m) => Ok(Watch(names, m))
  }

  /** The keys `serve` blocks on, one per watched name, in order. */
  function QueueKeys(bus: Bus, names: seq<string>): (keys: seq<string>)
    ensures |keys| == |names|
    ensures forall i :: 0 <= i < |names| ==> keys[i] == CallsKey(bus, names[i])
  {
    if |names| == 0 then [] else [CallsKey(bus, names[0])] + QueueKeys(bus, names[1..])
  }

  /** One turn of `serve`'s loop: `Idle` when every watched queue is empty
      (where `BRPOP` would block), otherwise the queue it popped, the name
      it routed the call to, the record, and the execution. */
  datatype Served = Idle | Served(queue: nat, methodName: string, rec: CallRecord, step: Step<Value>)

  /** Runs a popped record under the options the step found for `name`;
      a name without options raises `KeyError`, the record already popped. */
  function Dispatch(bus: Bus, t: Broker, w: Watch, queue: nat, name: string, rec: CallRecord, entropy: nat): (r: Served)
    ensures r.Served? && r.queue == queue && r.methodName == name && r.rec == rec
    ensures name !in w.opts ==> r.step == Step(t, Err(NoOptions(name)))
  {
    if name in w.opts then Served(queue, name, rec, ExecFunction(bus, t, name, w.opts[name], rec, entropy))
    else Served(queue, name, rec, Step(t, Err(NoOptions(name))))
  }

  /** The loop step as written: the method name is recovered from the popped
      key as the text after its last ':', and looked up among the options. */
  function ServeStepAsWritten(bus: Bus, s: Broker, w: Watch, entropy: nat): (r: Served)
    ensures r.Idle? <==> forall i :: 0 <= i < |w.names| ==> CallList(s, CallsKey(bus, w.names[i])) == []
    ensures r.Served? ==> r.queue < |w.names| && ':' !in r.methodName
  {
    var keys := QueueKeys(bus, w.names);
    var p := BRPop(s, keys);
    match p.1
    case None => Idle
    case Some(popped) => Dispatch(bus, p.0, w, popped.0, LastSegment(keys[popped.0], ':'), popped.1, entropy)
  }

  /** The loop step as intended: the popped queue's own method name selects
      the options. The first non-empty watched queue loses its oldest record,
      which is executed with that method's options. */
  function ServeStep(bus: Bus, s: Broker, w: Watch, entropy: nat): (r: Served)
    requires Covers(w)
    ensures r.Idle? <==> forall i :: 0 <= i < |w.names| ==> CallList(s, CallsKey(bus, w.names[i])) == []
    ensures r.Served? ==>
      var key := CallsKey(bus, r.methodName);
      var xs := CallList(s, key);
      && r.queue < |w.names| && r.methodName == w.names[r.queue]
      && (forall j :: 0 <= j < r.queue ==> CallList(s, CallsKey(bus, w.names[j])) == [])
      && xs != [] && r.rec == xs[|xs| - 1]
      && r.step == ExecFunction(bus, RPop(s, key).0, r.methodName, w.opts[r.methodName], r.rec, entropy)
  {
    var keys := QueueKeys(bus, w.names);
    var p := BRPop(s, keys);
    match p.1
    case None => Idle
    case Some(popped) =>
      Dispatch(bus, p.0, w, popped.0, w.names[popped.0], popped.1, entropy)
  }

  /** A served call that returns leaves its queue one record shorter and its
      value appended to its result slot. */
  lemma ServeStepPublishes(bus: Bus, s: Broker, w: Watch, entropy: nat)
    requires Covers(w) && Keeps(bus.resultExpire)
    ensures var r := ServeStep(bus, s, w, entropy);
      r.Served? && r.step.out.Ok? ==>
        var xs := CallList(s, CallsKey(bus, r.methodName));
        && CallList(r.step.state, CallsKey(bus, r.methodName)) == xs[..|xs| - 1]
        && ResultList(r.step.state, ResultsKey(bus, r.rec.resultId))
             == ResultList(s, ResultsKey(bus, r.rec.resultId)) + [r.step.out.value]
  {
    var r := ServeStep(bus, s, w, entropy);
    if r.Served? {
      var p := RPop(s, CallsKey(bus, r.methodName));
      ExecKeepsQueues(bus, p.0, r.methodName, w.opts[r.methodName], r.rec, entropy);
      ExecPublishes(bus, p.0, r.methodName, w.opts[r.methodName], r.rec, entropy);
    }
  }

  /** The text after the last ':' of a method's call key is its name when
      the name has no ':', and the name's own last segment otherwise. */
  lemma CallsKeySegment(bus: Bus, head: string, tail: string)
    requires ':' !in tail
    ensures LastSegment(CallsKey(bus, tail), ':') == tail
    ensures LastSegment(CallsKey(bus, head + ":" + tail), ':') == tail
  {
    assert CallsKey(bus, tail) == (bus.name + ":calls") + [':'] + tail;
    LastSegmentOf(bus.name + ":calls", ':', tail);
    assert CallsKey(bus, head + ":" + tail) == (bus.name + ":calls:" + head) + [':'] + tail;
    LastSegmentOf(bus.name + ":calls:" + head, ':', tail);
  }

  /** When no watched name contains ':', the step as written routes every
      call to its own method and so agrees with the intended step. */
  lemma ServeStepAgrees(bus: Bus, s: Broker, w: Watch, entropy: nat)
    requires Covers(w)
    requires forall i :: 0 <= i < |w.names| ==> ':' !in w.names[i]
    ensures ServeStepAsWritten(bus, s, w, entropy) == ServeStep(bus, s, w, entropy)
  {
    var keys := QueueKeys(bus, w.names);
    var p := BRPop(s, keys);
    if p.1.Some? {
      var i := p.1.value.0;
      CallsKeySegment(bus, "", w.names[i]);
      assert LastSegment(keys[i], ':') == w.names[i];
    }
  }

  /** The step as written misroutes a call to a method whose name contains
      ':': it looks up the options of the text after the last ':' instead.
      When no such method is watched the record has been popped all the same
      and is lost; when one is, the call runs with the wrong method's
      options. */
  lemma ServeStepMisroutes(bus: Bus, s: Broker, w: Watch, entropy: nat, i: nat, head: string, tail: string)
    requires Covers(w)
    requires i < |w.names| && w.names[i] == head + ":" + tail && ':' !in tail
    requires forall j :: 0 <= j < i ==> CallList(s, CallsKey(bus, w.names[j])) == []
    requires CallList(s, CallsKey(bus, w.names[i])) != []
    ensures var r := ServeStepAsWritten(bus, s, w, entropy);
      var xs := CallList(s, CallsKey(bus, w.names[i]));
      && r.Served? && r.queue == i && r.methodName == tail && r.methodName != w.names[i]
      && (tail !in w.opts ==> r.step.out == Err(NoOptions(tail)) && CallList(r.step.state, CallsKey(bus, w.names[i])) == xs[..|xs| - 1])
      && (tail in w.opts ==> r.step == ExecFunction(bus, RPop(s, CallsKey(bus, w.names[i])).0, tail, w.opts[tail], xs[|xs| - 1], entropy))
  {
    var keys := QueueKeys(bus, w.names);
    CallsKeySegment(bus, head, tail);
    assert LastSegment(keys[i], ':') == tail;
    assert |tail| < |w.names[i]|;
  }
}

=== FILE: signatures.dfy ===
/** Statically declared function signatures and the two ways werkzeug binds a
    call to one: `validate_arguments`, which the worker runs before calling the
    function, and `bind_arguments`, whose result the cache-key template is
    formatted with. Both rest on the same signature parser. Only plain named
    parameters with optional defaults are modelled. */
module Signatures {
  import opened Base
  import opened Data

  datatype Param = Param(name: string, default: Option<Value>)

  /** An importable function: its parameter list and its behaviour. The body
      receives the bound arguments in parameter order plus an entropy draw
      standing for any randomness or clock it reads; it either returns a value
      or raises a fault. */
  datatype Function = Function(params: seq<Param>, body: (seq<Value>, nat) -> Result<Value, Fault>)

  /** Why `bind_arguments` rejects a call. */
  datatype BindError =
    | TooManyPositional                       // positional arguments past the last parameter
    | UnexpectedKeywords(names: set<string>)  // unknown keywords, or ones repeating a positional argument

  function Names(params: seq<Param>): set<string>
  {
    set i | 0 <= i < |params| :: params[i].name
  }

  /** Python forbids two parameters with the same name. */
  predicate DistinctNames(params: seq<Param>) {
    forall i, j :: 0 <= i < j < |params| ==> params[i].name != params[j].name
  }

  /** Parameter `k` receives a value: positionally, by keyword or from its
      default. */
  predicate Supplied(params: seq<Param>, args: seq<Value>, kwargs: map<string, Value>, k: nat)
    requires k < |params|
  {
    k < |args| || params[k].name in kwargs || params[k].default.Some?
  }

  /** Every parameter receives a value. */
  predicate Complete(params: seq<Param>, args: seq<Value>, kwargs: map<string, Value>) {
    forall k :: 0 <= k < |params| ==> Supplied(params, args, kwargs, k)
  }

  /** The value parameter `k` receives; a positional argument takes
      precedence over a keyword of the same name. */
  ghost function BoundValue(params: seq<Param>, args: seq<Value>, kwargs: map<string, Value>, k: nat): Value
    requires k < |params| && Supplied(params, args, kwargs, k)
  {
    if k < |args| then args[k]
    else if params[k].name in kwargs then kwargs[params[k].name]
    else params[k].default.value
  }

  /** One value per parameter, in declaration order. */
  ghost function Bound(params: seq<Param>, args: seq<Value>, kwargs: map<string, Value>): seq<Value>
    requires Complete(params, args, kwargs)
  {
    seq(|params|, k requires 0 <= k < |params| => BoundValue(params, args, kwargs, k))
  }

  /** The names the parser looks up among the keywords: those of parameters
      `i..` that no positional argument fills. */
  ghost function KeywordSlots(params: seq<Param>, args: seq<Value>, i: nat): set<string>
  {
    set k | i <= k < |params| && |args| <= k :: params[k].name
  }

  // ---- The signature parser -------------------------------------------------

  /** What werkzeug's signature parser makes of a call: the values collected
      in parameter order (a parameter with no value is skipped, leaving no
      gap), the names of the parameters without a value, the keywords it
      could not place, and the positional arguments past the last parameter. */
  datatype Parsed = Parsed(values: seq<Value>, missing: seq<string>, extra: set<string>, surplus: seq<Value>)

  /** The parser's loop from parameter `i` on; `kwargs` holds the keywords
      not consumed yet. A parameter filled positionally moves a keyword of
      the same name to the extras; the keywords left at the end are extras
      too. */
  function ParseFrom(params: seq<Param>, args: seq<Value>, kwargs: map<string, Value>, i: nat): (p: Parsed)
    requires i <= |params|
    decreases |params| - i
    ensures |p.values| + |p.missing| == |params| - i
    ensures p.surplus == (if |params| < |args| then args[|params|..] else [])
    ensures |params| <= |args| ==> p.values == args[i..|params|] && p.missing == []
  {
    if i == |params| then Parsed([], [], kwargs.Keys, if |params| < |args| then args[|params|..] else [])
    else
      var n := params[i].name;
      if i < |args| then
        var rest := ParseFrom(params, args, kwargs - {n}, i + 1);
        rest.(values := [args[i]] + rest.values, extra := if n in kwargs then rest.extra + {n} else rest.extra)
      else if n in kwargs then
        var rest := ParseFrom(params, args, kwargs - {n}, i + 1);
        rest.(values := [kwargs[n]] + rest.values)
      else
        var rest := ParseFrom(params, args, kwargs, i + 1);
        if params[i].default.Some? then rest.(values := [params[i].default.value] + rest.values)
        else rest.(missing := [n] + rest.missing)
  }

  function Parse(params: seq<Param>, args: seq<Value>, kwargs: map<string, Value>): Parsed
  {
    ParseFrom(params, args, kwargs, 0)
  }

  /** Removing a parameter's own keyword does not change what the later
      parameters receive. */
  lemma SuppliedAfter(params: seq<Param>, args: seq<Value>, kwargs: map<string, Value>, i: nat, k: nat)
    requires DistinctNames(params) && i < k < |params|
    ensures Supplied(params, args, kwargs - {params[i].name}, k) == Supplied(params, args, kwargs, k)
    ensures Supplied(params, args, kwargs, k) ==>
      BoundValue(params, args, kwargs - {params[i].name}, k) == BoundValue(params, args, kwargs, k)
  {
    assert params[i].name != params[k].name;
  }

  /** The parser reports nothing missing exactly when every parameter from
      `i` on receives a value. */
  lemma {:induction false} ParseMissing(params: seq<Param>, args: seq<Value>, kwargs: map<string, Value>, i: nat)
    requires DistinctNames(params) && i <= |params|
    decreases |params| - i
    ensures ParseFrom(params, args, kwargs, i).missing == [] <==>
      forall k :: i <= k < |params| ==> Supplied(params, args, kwargs, k)
  {
    if i < |params| {
      var n := params[i].name;
      var kw := if i < |args| || n in kwargs then kwargs - {n} else kwargs;
      ParseMissing(params, args, kw, i + 1);
      forall k | i < k < |params| ensures Supplied(params, args, kw, k) == Supplied(params, args, kwargs, k) {
        SuppliedAfter(params, args, kwargs, i, k);
      }
      assert ParseFrom(params, args, kwargs, i).missing
          == (if Supplied(params, args, kwargs, i) then [] else [n]) + ParseFrom(params, args, kw, i + 1).missing;
    }
  }

  /** Up to the first parameter without a value, each parameter's value sits
      at its own position among the collected values. */
  lemma {:induction false} ParseValue(params: seq<Param>, args: seq<Value>, kwargs: map<string, Value>, i: nat, k: nat)
    requires DistinctNames(params) && i <= k < |params|
    requires forall j :: i <= j <= k ==> Supplied(params, args, kwargs, j)
    decreases k - i
    ensures var p := ParseFrom(params, args, kwargs, i);
      k - i < |p.values| && p.values[k - i] == BoundValue(params, args, kwargs, k)
  {
    var n := params[i].name;
    var kw := if i < |args| || n in kwargs then kwargs - {n} else kwargs;
    assert Supplied(params, args, kwargs, i);
    if i < k {
      forall j | i < j <= k ensures Supplied(params, args, kw, j) {
        SuppliedAfter(params, args, kwargs, i, j);
      }
      ParseValue(params, args, kw, i + 1, k);
      SuppliedAfter(params, args, kwargs, i, k);
    }
  }

  /** The extras are exactly the keywords that name no parameter the parser
      looks up by keyword. */
  lemma {:induction false} ParseExtra(params: seq<Param>, args: seq<Value>, kwargs: map<string, Value>, i: nat)
    requires DistinctNames(params) && i <= |params|
    decreases |params| - i
    ensures ParseFrom(params, args, kwargs, i).extra == kwargs.Keys - KeywordSlots(params, args, i)
  {
    if i < |params| {
      var n := params[i].name;
      var kw := if i < |args| || n in kwargs then kwargs - {n} else kwargs;
      ParseExtra(params, args, kw, i + 1);
      forall k | i + 1 <= k < |params| ensures params[k].name != n {
        assert params[i].name != params[k].name;
      }
      if i < |args| {
        assert KeywordSlots(params, args, i) == KeywordSlots(params, args, i + 1);
      } else {
        assert KeywordSlots(params, args, i) == KeywordSlots(params, args, i + 1) + {n};
      }
    }
  }

  // ---- validate_arguments ---------------------------------------------------

  /** `validate_arguments(func, args, kwargs)` with its default
      `drop_extra=True`: the values to call the function with, or the names
      of the parameters left without one. Surplus positional arguments and
      keywords the parser could not place are dropped without complaint. */
  function Validate(params: seq<Param>, args: seq<Value>, kwargs: map<string, Value>): (r: Result<seq<Value>, seq<string>>)
    ensures r.Ok? ==> |r.value| == |params|
    ensures r.Err? ==> r.error != []
    ensures |params| <= |args| ==> r == Ok(args[..|params|])
  {
    var p := Parse(params, args, kwargs);
    if p.missing != [] then Err(p.missing) else Ok(p.values)
  }

  /** The call validates exactly when every parameter receives a value, and
      then each parameter gets the value the call gives it. */
  lemma ValidateBinds(params: seq<Param>, args: seq<Value>, kwargs: map<string, Value>)
    requires DistinctNames(params)
    ensures Validate(params, args, kwargs).Ok? <==> Complete(params, args, kwargs)
    ensures Complete(params, args, kwargs) ==> Validate(params, args, kwargs) == Ok(Bound(params, args, kwargs))
  {
    ParseMissing(params, args, kwargs, 0);
    if Complete(params, args, kwargs) {
      var p := Parse(params, args, kwargs);
      assert |p.values| == |params|;
      forall k | 0 <= k < |params| ensures p.values[k] == Bound(params, args, kwargs)[k] {
        ParseValue(params, args, kwargs, 0, k);
      }
      assert p.values == Bound(params, args, kwargs);
    }
  }

  /** Adding a keyword that names no parameter looked up by keyword (an
      unknown name, or one a positional argument already fills) changes
      nothing the parser collects. */
  lemma {:induction false} ParseIgnores(params: seq<Param>, args: seq<Value>, kwargs: map<string, Value>,
                                        name: string, v: Value, i: nat)
    requires DistinctNames(params) && i <= |params|
    requires name !in KeywordSlots(params, args, i)
    decreases |params| - i
    ensures var p := ParseFrom(params, args, kwargs, i);
      var q := ParseFrom(params, args, kwargs[name := v], i);
      p.values == q.values && p.missing == q.missing
  {
    if i < |params| {
      var n := params[i].name;
      var kw := kwargs[name := v];
      assert KeywordSlots(params, args, i + 1) <= KeywordSlots(params, args, i);
      if i < |args| {
        if name == n {
          assert kw - {n} == kwargs - {n};
        } else {
          assert kw - {n} == (kwargs - {n})[name := v];
          ParseIgnores(params, args, kwargs - {n}, name, v, i + 1);
        }
      } else {
        assert n in KeywordSlots(params, args, i);
        if n in kwargs {
          assert kw - {n} == (kwargs - {n})[name := v];
          ParseIgnores(params, args, kwargs - {n}, name, v, i + 1);
        } else {
          ParseIgnores(params, args, kwargs, name, v, i + 1);
        }
      }
    }
  }

  /** `validate_arguments` drops a keyword that names no parameter looked
      up by keyword: `hello(username='Joe', name='Bob')` validates as
      `hello(username='Joe')`, and `hello('Joe', username='Bob')` as
      `hello('Joe')`. */
  lemma ValidateDropsKeyword(params: seq<Param>, args: seq<Value>, kwargs: map<string, Value>, name: string, v: Value)
    requires DistinctNames(params)
    requires name !in KeywordSlots(params, args, 0)
    ensures Validate(params, args, kwargs[name := v]) == Validate(params, args, kwargs)
  {
    ParseIgnores(params, args, kwargs, name, v, 0);
  }

  // ---- bind_arguments -------------------------------------------------------

  /** The bound arguments as the keyword dictionary a cache-key template is
      formatted with; a later parameter wins on a repeated name, as in a dict
      built left to right. */
  function BindingMap(params: seq<Param>, values: seq<Value>): (m: map<string, Value>)
    requires |values| == |params|
    ensures m.Keys == Names(params)
  {
    if |params| == 0 then map[]
    else
      var n := |params| - 1;
      NamesSnoc(params);
      BindingMap(params[..n], values[..n])[params[n].name := values[n]]
  }

  lemma NamesSnoc(params: seq<Param>)
    requires |params| > 0
    ensures Names(params) == Names(params[..|params| - 1]) + {params[|params| - 1].name}
  {
    var n := |params| - 1;
    forall x | x in Names(params) ensures x in Names(params[..n]) + {params[n].name} {
      var i :| 0 <= i < |params| && params[i].name == x;
      if i < n { assert params[..n][i].name == x; }
    }
  }

  /** With distinct parameter names every parameter maps to its own value. */
  lemma {:induction false} BindingMapAt(params: seq<Param>, values: seq<Value>, i: nat)
    requires |values| == |params|
    requires DistinctNames(params)
    requires i < |params|
    ensures BindingMap(params, values)[params[i].name] == values[i]
  {
    var n := |params| - 1;
    if i < n {
      assert params[i].name != params[n].name;
      assert DistinctNames(params[..n]);
      BindingMapAt(params[..n], values[..n], i);
      assert params[..n][i] == params[i];
    }
  }

  lemma NamesPrefix(params: seq<Param>, n: nat)
    requires n <= |params|
    ensures Names(params[..n]) <= Names(params)
  {
    forall x | x in Names(params[..n]) ensures x in Names(params) {
      var i :| 0 <= i < n && params[..n][i].name == x;
      assert params[i].name == x;
    }
  }

  /** `bind_arguments(func, args, kwargs)`: the parameter-to-value
      dictionary. It raises on surplus positional arguments and on keywords
      the parser could not place, but never on a missing parameter: the
      collected values are paired with the parameters in order, so a gap
      shifts later values onto earlier names and the last parameters get no
      entry. */
  function BindArguments(params: seq<Param>, args: seq<Value>, kwargs: map<string, Value>)
    : (r: Result<map<string, Value>, BindError>)
    ensures r == Err(TooManyPositional) <==> |params| < |args|
    ensures r.Ok? ==> r.value.Keys <= Names(params)
  {
    var p := Parse(params, args, kwargs);
    if p.surplus != [] then Err(TooManyPositional)
    else if p.extra != {} then Err(UnexpectedKeywords(p.extra))
    else
      NamesPrefix(params, |p.values|);
      Ok(BindingMap(params[..|p.values|], p.values))
  }

  /** `bind_arguments` succeeds exactly when there is no surplus positional
      argument and every keyword names a parameter that no positional
      argument fills; a missing parameter does not make it fail. */
  lemma BindArgumentsOk(params: seq<Param>, args: seq<Value>, kwargs: map<string, Value>)
    requires DistinctNames(params)
    ensures BindArguments(params, args, kwargs).Ok? <==>
      |args| <= |params| && kwargs.Keys <= KeywordSlots(params, args, 0)
  {
    ParseExtra(params, args, kwargs, 0);
    var p := Parse(params, args, kwargs);
    if kwargs.Keys <= KeywordSlots(params, args, 0) {
      assert p.extra == {};
    } else {
      var x :| x in kwargs.Keys && x !in KeywordSlots(params, args, 0);
      assert x in p.extra;
    }
  }

  /** Every parameter up to the first one without a value is bound to the
      value the call gives it. */
  lemma BindArgumentsValue(params: seq<Param>, args: seq<Value>, kwargs: map<string, Value>, k: nat)
    requires DistinctNames(params) && k < |params|
    requires forall j :: 0 <= j <= k ==> Supplied(params, args, kwargs, j)
    requires BindArguments(params, args, kwargs).Ok?
    ensures var m := BindArguments(params, args, kwargs).value;
      params[k].name in m && m[params[k].name] == BoundValue(params, args, kwargs, k)
  {
    var p := Parse(params, args, kwargs);
    ParseValue(params, args, kwargs, 0, k);
    var ps := params[..|p.values|];
    assert DistinctNames(ps);
    assert ps[k] == params[k];
    BindingMapAt(ps, p.values, k);
  }

  /** When every parameter receives a value, `bind_arguments` maps each
      parameter to it, and nothing else. */
  lemma BindArgumentsBinds(params: seq<Param>, args: seq<Value>, kwargs: map<string, Value>)
    requires DistinctNames(params) && Complete(params, args, kwargs)
    requires BindArguments(params, args, kwargs).Ok?
    ensures var m := BindArguments(params, args, kwargs).value;
      m.Keys == Names(params) && forall k :: 0 <= k < |params| ==> m[params[k].name] == BoundValue(params, args, kwargs, k)
  {
    ParseMissing(params, args, kwargs, 0);
    var p := Parse(params, args, kwargs);
    assert params[..|p.values|] == params;
    forall k | 0 <= k < |params|
      ensures BindArguments(params, args, kwargs).value[params[k].name] == BoundValue(params, args, kwargs, k)
    {
      BindArgumentsValue(params, args, kwargs, k);
    }
  }

  /** The gap shift: for `f(a, b=5)` called with no arguments,
      `bind_arguments` binds `a` to `b`'s default and leaves `b` out, while
      `validate_arguments` reports `a` missing. */
  lemma BindArgumentsShifts()
    ensures var params := [Param("a", None), Param("b", Some(IntValue(5)))];
      && BindArguments(params, [], map[]) == Ok(map["a" := IntValue(5)])
      && Validate(params, [], map[]) == Err(["a"])
  {
    var params := [Param("a", None), Param("b", Some(IntValue(5)))];
    assert ParseFrom(params, [], map[], 2) == Parsed([], [], {}, []);
    assert ParseFrom(params, [], map[], 1) == Parsed([IntValue(5)], [], {}, []);
    assert Parse(params, [], map[]) == Parsed([IntValue(5)], ["a"], {}, []);
    assert params[..1] == [Param("a", None)];
  }

  // ---- Positional and keyword forms -----------------------------------------

  /** Past the positional arguments, the parser depends on them only through
      their number, and not even that once both lists are used up. */
  lemma {:induction false} ParsePastArgs(params: seq<Param>, a: seq<Value>, b: seq<Value>, kwargs: map<string, Value>, i: nat)
    requires |a| <= i <= |params| && |b| <= i
    decreases |params| - i
    ensures ParseFrom(params, a, kwargs, i) == ParseFrom(params, b, kwargs, i)
  {
    if i < |params| {
      var n := params[i].name;
      ParsePastArgs(params, a, b, kwargs - {n}, i + 1);
      ParsePastArgs(params, a, b, kwargs, i + 1);
    }
  }

  /** Moving the last positional argument into the keywords leaves the
      parser's result unchanged from parameter `i` on. */
  lemma {:induction false} ParseKeywordForm(params: seq<Param>, args: seq<Value>, kwargs: map<string, Value>, i: nat)
    requires DistinctNames(params)
    requires 0 < |args| <= |params|
    requires i < |args|
    requires params[|args| - 1].name !in kwargs
    decreases |params| - i
    ensures ParseFrom(params, args, kwargs, i)
         == ParseFrom(params, args[..|args| - 1], kwargs[params[|args| - 1].name := args[|args| - 1]], i)
  {
    var n := |args| - 1;
    var name := params[n].name;
    var kw := kwargs[name := args[n]];
    if i == n {
      assert kw - {name} == kwargs - {name};
      assert kwargs - {name} == kwargs;
      ParsePastArgs(params, args, args[..n], kwargs, i + 1);
    } else {
      var m := params[i].name;
      assert m != name;
      assert kw - {m} == (kwargs - {m})[name := args[n]];
      ParseKeywordForm(params, args, kwargs - {m}, i + 1);
    }
  }

  /** Passing the last positional argument by keyword instead is the same
      call to both binders: `f(a, b)` and `f(a, b=...)` bind alike. */
  lemma PositionalAsKeyword(params: seq<Param>, args: seq<Value>, kwargs: map<string, Value>)
    requires DistinctNames(params)
    requires 0 < |args| <= |params|
    requires params[|args| - 1].name !in kwargs
    ensures var kwargs' := kwargs[params[|args| - 1].name := args[|args| - 1]];
      && Validate(params, args, kwargs) == Validate(params, args[..|args| - 1], kwargs')
      && BindArguments(params, args, kwargs) == BindArguments(params, args[..|args| - 1], kwargs')
  {
    ParseKeywordForm(params, args, kwargs, 0);
  }
}

=== FILE: strings.dfy ===
/** String helpers standing in for the Python string methods the bus uses. */
module Strings {
  import opened Base

  /** Python's `sep.join(parts)`. */
  function Join(sep: string, parts: seq<string>): string
  {
    if |parts| == 0 then ""
    else if |parts| == 1 then parts[0]
    else parts[0] + sep + Join(sep, parts[1..])
  }

  lemma JoinCons(sep: string, head: string, tail: seq<string>)
    requires |tail| > 0
    ensures Join(sep, [head] + tail) == head + sep + Join(sep, tail)
  {
    assert ([head] + tail)[1..] == tail;
  }

  /** Python's `s.rsplit(c, 1)[-1]`: the text after the last `c`, or all of `s`
      when `c` does not occur. The contract pins the result down completely:
      it is the longest suffix of `s` that does not contain `c`. */
  function LastSegment(s: string, c: char): (r: string)
    ensures |r| <= |s| && r == s[|s| - |r|..]
    ensures c !in r
    ensures |r| < |s| ==> s[|s| - |r| - 1] == c
  {
    if |s| == 0 then ""
    else if s[|s| - 1] == c then ""
    else LastSegment(s[..|s| - 1], c) + [s[|s| - 1]]
  }

  /** When `s` has the shape `head + [c] + tail` with no `c` in `tail`,
      the last segment is exactly `tail`. */
  lemma LastSegmentOf(head: string, c: char, tail: string)
    requires c !in tail
    ensures LastSegment(head + [c] + tail, c) == tail
  {
    var s := head + [c] + tail;
    assert s[|s| - |tail| - 1] == c;
    assert forall k :: 0 <= k < |tail| ==> s[|s| - |tail| + k] == tail[k];
  }

  /** First index `j >= from` with `s[j] == c`, if any. */
  function FindChar(s: string, c: char, from: nat): (r: Option<nat>)
    decreases |s| - from
    ensures r.Some? ==> from <= r.value < |s| && s[r.value] == c
    ensures r.Some? ==> forall k :: from <= k < r.value ==> s[k] != c
    ensures r.None? ==> forall k :: from <= k < |s| ==> s[k] != c
  {
    if from >= |s| then None
    else if s[from] == c then Some(from)
    else FindChar(s, c, from + 1)
  }

  function DigitChar(d: nat): char
    requires d < 10
  {
    "0123456789"[d]
  }

  function DigitValue(ch: char): nat
  {
    if '0' <= ch <= '9' then (ch as int - '0' as int) as nat else 0
  }

  predicate IsDigit(ch: char) {
    '0' <= ch <= '9'
  }

  /** Python's `str(n)` for a non-negative integer. */
  function NatToString(n: nat): (r: string)
    ensures |r| > 0
    ensures forall i :: 0 <= i < |r| ==> IsDigit(r[i])
  {
    if n < 10 then [DigitChar(n)] else NatToString(n / 10) + [DigitChar(n % 10)]
  }

  /** Python's `str(i)` for any integer. */
  function IntToString(i: int): string
  {
    if i < 0 then "-" + NatToString(-i) else NatToString(i)
  }

  /** Reads a string of decimal digits back; the partner of `NatToString`. */
  function ParseNat(s: string): nat
  {
    if |s| == 0 then 0 else ParseNat(s[..|s| - 1]) * 10 + DigitValue(s[|s| - 1])
  }

  lemma {:induction false} ParseNatToString(n: nat)
    ensures ParseNat(NatToString(n)) == n
  {
    if n >= 10 {
      var s := NatToString(n);
      assert s[..|s| - 1] == NatToString(n / 10);
      ParseNatToString(n / 10);
      assert DigitValue(DigitChar(n % 10)) == n % 10;
    } else {
      assert DigitValue(DigitChar(n)) == n;
    }
  }

  /** Distinct numbers print differently. */
  lemma NatToStringInjective(m: nat, n: nat)
    requires m != n
    ensures NatToString(m) != NatToString(n)
  {
    ParseNatToString(m);
    ParseNatToString(n);
  }
}

=== FILE: template.dfy ===
/** Cache-key templates: Python's `template.format(**bound)` restricted to
    plain `{name}` fields and the `{{` / `}}` brace escapes. */
module Template {
  import opened Base
  import opened Strings
  import opened Data

  datatype FormatError =
    | UnmatchedOpen               // a `{` with no closing `}`
    | SingleClose                 // a lone `}`
    | PositionalField(field: string)  // `{}` or `{0}`: no positional arguments are passed
    | MissingField(field: string)     // a name the bound arguments do not have

  /** `{}` and `{<digits>}` ask for a positional argument. */
  predicate IsPositional(field: string) {
    forall i :: 0 <= i < |field| ==> IsDigit(field[i])
  }

  /** Formats `t` left to right, stopping at the first error, as `str.format` does. */
  function Format(t: string, env: map<string, Value>): Result<string, FormatError>
    decreases |t|
  {
    if |t| == 0 then Ok("")
    else if t[0] == '{' && |t| >= 2 && t[1] == '{' then
      var rest :- Format(t[2..], env);
      Ok("{" + rest)
    else if t[0] == '{' then
      match FindChar(t, '}', 1)
      case None => Err(UnmatchedOpen)
      case Some(j) =>
        var field := t[1..j];
        if IsPositional(field) then Err(PositionalField(field))
        else if field !in env then Err(MissingField(field))
        else
          var rest :- Format(t[j + 1..], env);
          Ok(Str(env[field]) + rest)
    else if t[0] == '}' && |t| >= 2 && t[1] == '}' then
      var rest :- Format(t[2..], env);
      Ok("}" + rest)
    else if t[0] == '}' then Err(SingleClose)
    else
      var rest :- Format(t[1..], env);
      Ok([t[0]] + rest)
  }

  /** A template in parsed form: literal characters and named fields. */
  datatype Segment = Lit(c: char) | Field(name: string)

  /** A field name `str.format` looks up as a keyword. */
  predicate ValidName(name: string) {
    !IsPositional(name) && '}' !in name && '{' !in name
  }

  predicate Fits(segs: seq<Segment>, env: map<string, Value>) {
    forall i :: 0 <= i < |segs| ==> segs[i].Field? ==> ValidName(segs[i].name) && segs[i].name in env
  }

  /** The template text for a parsed template, escaping literal braces. */
  function Render(segs: seq<Segment>): string
  {
    if |segs| == 0 then ""
    else RenderOne(segs[0]) + Render(segs[1..])
  }

  function RenderOne(seg: Segment): string
  {
    match seg
    case Lit(c) => if c == '{' then "{{" else if c == '}' then "}}" else [c]
    case Field(name) => "{" + name + "}"
  }

  /** Reference semantics: each literal stands for itself and each field for
      the `str()` of its value. */
  function Expand(segs: seq<Segment>, env: map<string, Value>): string
    requires Fits(segs, env)
  {
    if |segs| == 0 then ""
    else
      (match segs[0]
       case Lit(c) => [c]
       case Field(name) => Str(env[name]))
      + Expand(segs[1..], env)
  }

  /** Formatting the text of a parsed template gives its reference expansion. */
  lemma {:induction false} FormatRender(segs: seq<Segment>, env: map<string, Value>)
    requires Fits(segs, env)
    ensures Format(Render(segs), env) == Ok(Expand(segs, env))
  {
    if |segs| > 0 {
      var rest := Render(segs[1..]);
      assert Fits(segs[1..], env);
      FormatRender(segs[1..], env);
      var t := RenderOne(segs[0]) + rest;
      assert Render(segs) == t;
      match segs[0]
      case Lit(c) =>
        if c == '{' || c == '}' {
          assert t[2..] == rest;
        } else {
          assert t[1..] == rest;
        }
      case Field(name) =>
        FieldAt(name, rest);
    }
  }

  /** Where the field of a rendered `{name}` segment starts and ends. */
  lemma FieldAt(name: string, rest: string)
    requires '}' !in name
    ensures var t := "{" + name + "}" + rest;
      && FindChar(t, '}', 1) == Some(|name| + 1)
      && t[1..|name| + 1] == name
      && t[|name| + 2..] == rest
  {
    var t := "{" + name + "}" + rest;
    var j := |name| + 1;
    assert t[j] == '}';
    assert forall k :: 1 <= k < j ==> t[k] == name[k - 1];
  }

  /** A failure later in the text is still reached past a segment that formats. */
  lemma FailurePropagates(seg: Segment, rest: string, env: map<string, Value>)
    requires seg.Field? ==> ValidName(seg.name) && seg.name in env
    requires Format(rest, env).Err?
    ensures Format(RenderOne(seg) + rest, env).Err?
  {
    var t := RenderOne(seg) + rest;
    match seg
    case Lit(c) =>
      if c == '{' || c == '}' {
        assert t[2..] == rest;
      } else {
        assert t[1..] == rest;
      }
    case Field(name) =>
      FieldAt(name, rest);
  }

  /** A template that names a field the bound arguments lack fails to format. */
  lemma {:induction false} FormatMissing(segs: seq<Segment>, env: map<string, Value>, i: nat)
    requires i < |segs| && segs[i].Field? && ValidName(segs[i].name) && segs[i].name !in env
    requires Fits(segs[..i], env)
    ensures Format(Render(segs), env).Err?
  {
    var rest := Render(segs[1..]);
    assert Render(segs) == RenderOne(segs[0]) + rest;
    if i == 0 {
      FieldAt(segs[0].name, rest);
    } else {
      assert segs[1..][..i - 1] == segs[..i][1..];
      FormatMissing(segs[1..], env, i - 1);
      assert segs[..i][0] == segs[0];
      FailurePropagates(segs[0], rest, env);
    }
  }
}

=== FILE: worker.dfy ===
/** The worker side of one call: `_exec_function` and the writes it makes. */
module Worker {
  import opened Base
  import opened Strings
  import opened Glob
  import opened Data
  import opened Broker
  import opened Signatures
  import opened Keyspace
  import opened Registry
  import opened Resolver

  /** The `ArgumentValidationError` `validate_arguments` raises, naming the
      parameters that received no value. */
  function ArgumentFault(missing: seq<string>): Fault
  {
    Fault("ArgumentValidationError", Join(", ", missing))
  }

  /** The function's outcome on `values`: its return value, or the exception
      object it raised. */
  function Returns(f: Function, values: seq<Value>, entropy: nat): Value
  {
    match f.body(values, entropy)
    case Ok(v) => v
    case Err(fault) => ExcValue(fault)
  }

  /** The `try` block of `_exec_function`: validates the arguments and calls
      the function; an `Exception` it raises becomes the result instead of
      propagating. Every modelled fault is an `Exception`. */
  function Invoke(f: Function, args: seq<Value>, kwargs: map<string, Value>, entropy: nat): Value
  {
    match Validate(f.params, args, kwargs)
    case Err(missing) => ExcValue(ArgumentFault(missing))
    case Ok(values) => Returns(f, values, entropy)
  }

  /** A call in which every parameter receives a value runs the function on
      those values; surplus positional arguments and keywords that name no
      parameter are dropped. A call that leaves a parameter without a value
      becomes an `ArgumentValidationError` object and the function does not
      run. */
  lemma InvokeOutcome(f: Function, args: seq<Value>, kwargs: map<string, Value>, entropy: nat)
    requires DistinctNames(f.params)
    ensures Complete(f.params, args, kwargs) ==>
      Invoke(f, args, kwargs, entropy) == Returns(f, Bound(f.params, args, kwargs), entropy)
    ensures !Complete(f.params, args, kwargs) ==>
      Invoke(f, args, kwargs, entropy).ExcValue? && Invoke(f, args, kwargs, entropy).fault.kind == "ArgumentValidationError"
    ensures |f.params| <= |args| ==> Invoke(f, args, kwargs, entropy) == Returns(f, args[..|f.params|], entropy)
  {
    ValidateBinds(f.params, args, kwargs);
  }

  /** A configured timeout that leaves the key in place (None, or positive). */
  predicate Keeps(timeout: Option<int>) {
    timeout.None? || timeout.value > 0
  }

  /** `EXPIRE key timeout` when a timeout is configured. */
  function ExpireAfter(s: Broker, key: string, timeout: Option<int>): (t: Broker)
    ensures Untouched(s, t, {key})
    ensures Keeps(timeout) ==>
      && Get(t, key) == Get(s, key) && CallList(t, key) == CallList(s, key)
      && ResultList(t, key) == ResultList(s, key) && HashOf(t, key) == HashOf(s, key)
    ensures !Keeps(timeout) ==> !Exists(t, key)
    ensures timeout.Some? && timeout.value > 0 && Exists(s, key) ==> key in t.ttl && t.ttl[key] == timeout.value
    ensures Valid(s) ==> Valid(t)
  {
    if timeout.Some? then Expire(s, key, timeout.value) else s
  }

  /** Stores an outcome in the result slot of `id`, with the result timeout. */
  function Publish(bus: Bus, s: Broker, id: string, v: Value): (t: Broker)
    ensures Untouched(s, t, {ResultsKey(bus, id)})
    ensures Keeps(bus.resultExpire) ==> ResultList(t, ResultsKey(bus, id)) == ResultList(s, ResultsKey(bus, id)) + [v]
    ensures bus.resultExpire.Some? && bus.resultExpire.value > 0 ==>
      ResultsKey(bus, id) in t.ttl && t.ttl[ResultsKey(bus, id)] == bus.resultExpire.value
    ensures Valid(s) ==> Valid(t)
  {
    var key := ResultsKey(bus, id);
    var t := RPush(s, key, v);
    ExpireAfter(t, key, bus.resultExpire)
  }

  /** The keys `_exec_function` may write for one call: the result slot and,
      for a templated method, the resolved cache slot. */
  function Written(bus: Bus, id: string, cacheKey: Result<Option<string>, BusError>): set<string>
  {
    {ResultsKey(bus, id)} + (if cacheKey.Ok? && cacheKey.value.Some? then {cacheKey.value.value} else {})
  }

  /** No call queue and not the methods hash is among the keys a call writes. */
  lemma WrittenAvoidsQueues(bus: Bus, methodName: string, id: string, cacheKey: Result<Option<string>, BusError>)
    requires cacheKey.Ok? && cacheKey.value.Some? ==> exists resolved :: cacheKey.value.value == CacheKey(bus, methodName, resolved)
    ensures forall m :: CallsKey(bus, m) !in Written(bus, id, cacheKey)
    ensures MethodsKey(bus) !in Written(bus, id, cacheKey)
    ensures forall other :: ResultsKey(bus, other) != ResultsKey(bus, id) ==> ResultsKey(bus, other) !in Written(bus, id, cacheKey)
  {
    forall m ensures CallsKey(bus, m) !in Written(bus, id, cacheKey) {
      KeyKindsDisjoint(bus, m, id, methodName, "");
      if cacheKey.Ok? && cacheKey.value.Some? {
        var resolved :| cacheKey.value.value == CacheKey(bus, methodName, resolved);
        KeyKindsDisjoint(bus, m, id, methodName, resolved);
      }
    }
    KeyKindsDisjoint(bus, "", id, methodName, "");
    if cacheKey.Ok? && cacheKey.value.Some? {
      var resolved :| cacheKey.value.value == CacheKey(bus, methodName, resolved);
      KeyKindsDisjoint(bus, "", id, methodName, resolved);
      forall other ensures ResultsKey(bus, other) != cacheKey.value.value {
        KeyKindsDisjoint(bus, "", other, methodName, resolved);
      }
    }
  }

  /** Writes an outcome to a cache slot, with the cache timeout. */
  function CacheStore(bus: Bus, s: Broker, key: string, v: Value): (t: Broker)
    ensures Untouched(s, t, {key})
    ensures Keeps(bus.cacheExpire) ==> Get(t, key) == Some(v)
    ensures !Keeps(bus.cacheExpire) ==> Get(t, key).None?
    ensures Valid(s) ==> Valid(t)
  {
    ExpireAfter(Set(s, key, v), key, bus.cacheExpire)
  }

  /** `_exec_function`: re-checks the cache and adopts a cached outcome;
      otherwise runs the function, capturing a raised fault as the outcome.
      A cache-key error escapes (the source computes the key outside the
      `try`). Only the call's result slot and its cache slot are written;
      the lemmas below say how. */
  function ExecFunction(bus: Bus, s: Broker, methodName: string, opts: Options, rec: CallRecord, entropy: nat)
    : (r: Step<Value>)
    ensures r.out.Err? ==> r.state == s
    ensures Valid(s) ==> Valid(r.state)
  {
    // The source resolves the key twice, once inside `_check_cache` and once
    // before writing the cache; resolution is pure, so both give this key.
    match RedisCacheKey(bus, methodName, opts, rec.args, rec.kwargs)
    case Err(e) => Step(s, Err(e))
    case Ok(key) =>
      match LookupCache(s, key)
      case Err(e) => Step(s, Err(e))
      case Ok(Some(v)) => Step(Publish(bus, s, rec.resultId, v), Ok(v))
      case Ok(None) =>
        var v := Invoke(opts.func, rec.args, rec.kwargs, entropy);
        if key.None? then Step(Publish(bus, s, rec.resultId, v), Ok(v))
        else Step(Publish(bus, CacheStore(bus, s, key.value, v), rec.resultId, v), Ok(v))
  }

  /** Executing a call writes no key but its result slot and its cache slot. */
  lemma ExecFrame(bus: Bus, s: Broker, methodName: string, opts: Options, rec: CallRecord, entropy: nat)
    ensures Untouched(s, ExecFunction(bus, s, methodName, opts, rec, entropy).state,
                      Written(bus, rec.resultId, RedisCacheKey(bus, methodName, opts, rec.args, rec.kwargs)))
  {
    var cacheKey := RedisCacheKey(bus, methodName, opts, rec.args, rec.kwargs);
    var written := Written(bus, rec.resultId, cacheKey);
    var rk := ResultsKey(bus, rec.resultId);
    assert rk in written;
    var r := ExecFunction(bus, s, methodName, opts, rec, entropy);
    if cacheKey.Ok? && LookupCache(s, cacheKey.value).Ok? {
      var key := cacheKey.value;
      var v := Invoke(opts.func, rec.args, rec.kwargs, entropy);
      if LookupCache(s, key).value.None? && key.Some? {
        var cached := CacheStore(bus, s, key.value, v);
        assert r.state == Publish(bus, cached, rec.resultId, v);
        assert key.value in written;
        UntouchedTrans(s, cached, r.state, {key.value}, {rk});
        UntouchedWeaken(s, r.state, {key.value} + {rk}, written);
      } else {
        UntouchedWeaken(s, r.state, {rk}, written);
      }
    }
  }

  lemma UntouchedWeaken(s: Broker, t: Broker, a: set<string>, b: set<string>)
    requires Untouched(s, t, a) && a <= b
    ensures Untouched(s, t, b)
  {
  }

  /** What executing a call yields: the cache-check error, unchanged state,
      when resolving or reading the cache fails; the cached value on a hit;
      the function's own outcome, fault included, on a miss. */
  lemma ExecOutcome(bus: Bus, s: Broker, methodName: string, opts: Options, rec: CallRecord, entropy: nat)
    ensures var r := ExecFunction(bus, s, methodName, opts, rec, entropy);
      var c := CheckCache(bus, s, methodName, opts, rec.args, rec.kwargs);
      && (c.Err? ==> r == Step(s, Err(c.error)))
      && (c == Ok(None) ==> r.out == Ok(Invoke(opts.func, rec.args, rec.kwargs, entropy)))
      && (c.Ok? && c.value.Some? ==> r.out == Ok(c.value.value))
  {
  }

  /** Executing a call leaves every call queue and the methods hash alone. */
  lemma ExecKeepsQueues(bus: Bus, s: Broker, methodName: string, opts: Options, rec: CallRecord, entropy: nat)
    ensures var r := ExecFunction(bus, s, methodName, opts, rec, entropy);
      && (forall m :: CallList(r.state, CallsKey(bus, m)) == CallList(s, CallsKey(bus, m)))
      && HashOf(r.state, MethodsKey(bus)) == HashOf(s, MethodsKey(bus))
  {
    ExecFrame(bus, s, methodName, opts, rec, entropy);
    WrittenAvoidsQueues(bus, methodName, rec.resultId, RedisCacheKey(bus, methodName, opts, rec.args, rec.kwargs));
  }

  /** The outcome is appended to the call's own result slot. */
  lemma ExecAppends(bus: Bus, s: Broker, methodName: string, opts: Options, rec: CallRecord, entropy: nat)
    requires Keeps(bus.resultExpire)
    ensures var r := ExecFunction(bus, s, methodName, opts, rec, entropy);
      r.out.Ok? ==>
        ResultList(r.state, ResultsKey(bus, rec.resultId)) == ResultList(s, ResultsKey(bus, rec.resultId)) + [r.out.value]
  {
    var cacheKey := RedisCacheKey(bus, methodName, opts, rec.args, rec.kwargs);
    var rk := ResultsKey(bus, rec.resultId);
    var r := ExecFunction(bus, s, methodName, opts, rec, entropy);
    if cacheKey.Err? || LookupCache(s, cacheKey.value).Err? {
    } else if LookupCache(s, cacheKey.value).value.Some? {
      assert r.state == Publish(bus, s, rec.resultId, LookupCache(s, cacheKey.value).value.value);
    } else if cacheKey.value.None? {
      assert r.state == Publish(bus, s, rec.resultId, Invoke(opts.func, rec.args, rec.kwargs, entropy));
    } else {
      AppendsAfterStore(bus, s, methodName, opts, rec, entropy);
    }
  }

  /** `ExecAppends` on a templated cache miss: storing the outcome in the
      cache slot does not disturb the result slot. */
  lemma AppendsAfterStore(bus: Bus, s: Broker, methodName: string, opts: Options, rec: CallRecord, entropy: nat)
    requires Keeps(bus.resultExpire)
    requires RedisCacheKey(bus, methodName, opts, rec.args, rec.kwargs).Ok?
    requires RedisCacheKey(bus, methodName, opts, rec.args, rec.kwargs).value.Some?
    requires LookupCache(s, RedisCacheKey(bus, methodName, opts, rec.args, rec.kwargs).value) == Ok(None)
    ensures var r := ExecFunction(bus, s, methodName, opts, rec, entropy);
      ResultList(r.state, ResultsKey(bus, rec.resultId)) == ResultList(s, ResultsKey(bus, rec.resultId)) + [r.out.value]
  {
    var rk := ResultsKey(bus, rec.resultId);
    var key := RedisCacheKey(bus, methodName, opts, rec.args, rec.kwargs).value.value;
    var resolved :| key == CacheKey(bus, methodName, resolved);
    KeyKindsDisjoint(bus, methodName, rec.resultId, methodName, resolved);
    var v := Invoke(opts.func, rec.args, rec.kwargs, entropy);
    var cached := CacheStore(bus, s, key, v);
    assert ExecFunction(bus, s, methodName, opts, rec, entropy) == Step(Publish(bus, cached, rec.resultId, v), Ok(v));
    assert ResultList(cached, rk) == ResultList(s, rk) by {
      assert rk !in {key};
    }
  }

  /** The outcome is appended to the call's result slot, and to no other. */
  lemma ExecPublishes(bus: Bus, s: Broker, methodName: string, opts: Options, rec: CallRecord, entropy: nat)
    requires Keeps(bus.resultExpire)
    ensures var r := ExecFunction(bus, s, methodName, opts, rec, entropy);
      r.out.Ok? ==>
        forall id :: ResultList(r.state, ResultsKey(bus, id))
                     == ResultList(s, ResultsKey(bus, id)) + (if id == rec.resultId then [r.out.value] else [])
  {
    var cacheKey := RedisCacheKey(bus, methodName, opts, rec.args, rec.kwargs);
    ExecAppends(bus, s, methodName, opts, rec, entropy);
    ExecFrame(bus, s, methodName, opts, rec, entropy);
    WrittenAvoidsQueues(bus, methodName, rec.resultId, cacheKey);
    forall id | id != rec.resultId ensures ResultsKey(bus, id) != ResultsKey(bus, rec.resultId) {
      if ResultsKey(bus, id) == ResultsKey(bus, rec.resultId) { ResultsKeyInjective(bus, id, rec.resultId); }
    }
  }

  /** A cached outcome is adopted without re-caching it, and a method without
      a template never touches the cache. */
  lemma ExecLeavesCache(bus: Bus, s: Broker, methodName: string, opts: Options, rec: CallRecord, entropy: nat)
    requires opts.ck.None? || CheckCache(bus, s, methodName, opts, rec.args, rec.kwargs).Err?
          || (CheckCache(bus, s, methodName, opts, rec.args, rec.kwargs).Ok?
              && CheckCache(bus, s, methodName, opts, rec.args, rec.kwargs).value.Some?)
    ensures Untouched(s, ExecFunction(bus, s, methodName, opts, rec, entropy).state, {ResultsKey(bus, rec.resultId)})
    ensures opts.ck.None? && Keeps(bus.resultExpire) ==> ExecFunction(bus, s, methodName, opts, rec, entropy).state.strings == s.strings
  {
  }

  /** On a cache miss a templated method's outcome is stored, then published. */
  lemma MissState(bus: Bus, s: Broker, methodName: string, opts: Options, rec: CallRecord, entropy: nat)
    requires opts.ck.Some?
    requires CheckCache(bus, s, methodName, opts, rec.args, rec.kwargs) == Ok(None)
    ensures var key := RedisCacheKey(bus, methodName, opts, rec.args, rec.kwargs).value.value;
      var v := Invoke(opts.func, rec.args, rec.kwargs, entropy);
      ExecFunction(bus, s, methodName, opts, rec, entropy) == Step(Publish(bus, CacheStore(bus, s, key, v), rec.resultId, v), Ok(v))
  {
  }

  /** On a cache miss a templated method's outcome lands in its cache slot,
      which a cache timeout that is not positive deletes at once. */
  lemma ExecCaches(bus: Bus, s: Broker, methodName: string, opts: Options, rec: CallRecord, entropy: nat)
    requires opts.ck.Some?
    requires CheckCache(bus, s, methodName, opts, rec.args, rec.kwargs) == Ok(None)
    ensures var r := ExecFunction(bus, s, methodName, opts, rec, entropy);
      var key := RedisCacheKey(bus, methodName, opts, rec.args, rec.kwargs).value.value;
      && (Keeps(bus.cacheExpire) ==> Get(r.state, key) == Some(Invoke(opts.func, rec.args, rec.kwargs, entropy)))
      && (!Keeps(bus.cacheExpire) ==> !Exists(r.state, key))
  {
    var key := RedisCacheKey(bus, methodName, opts, rec.args, rec.kwargs).value.value;
    var resolved :| key == CacheKey(bus, methodName, resolved);
    KeyKindsDisjoint(bus, methodName, rec.resultId, methodName, resolved);
    var v := Invoke(opts.func, rec.args, rec.kwargs, entropy);
    MissState(bus, s, methodName, opts, rec, entropy);
    PublishKeeps(bus, CacheStore(bus, s, key, v), rec.resultId, v, key);
  }

  /** Publishing leaves any other key's value and existence alone. */
  lemma PublishKeeps(bus: Bus, s: Broker, id: string, v: Value, key: string)
    requires key != ResultsKey(bus, id)
    ensures Get(Publish(bus, s, id, v), key) == Get(s, key)
    ensures Exists(Publish(bus, s, id, v), key) == Exists(s, key)
  {
    var pushed := RPush(s, ResultsKey(bus, id), v);
    assert Exists(pushed, key) == Exists(s, key);
    assert key !in {ResultsKey(bus, id)};
  }
}
